=== FILE: README.md ===
# saimath placement test — a Dafny model

saimath is a small placement-test app for primary-school maths. An administrator
authors one test paper per (grade, semester): up to 25 multiple-choice
questions with four choices each. A student enters name, phone, grade and
semester, answers the paper one question at a time, and submits. The server
grades the submission, stores the result and reports a score out of 100. The
administrator lists and filters stored results and opens each result question
by question.

This project models the logic of that flow as pure functions over immutable
datatypes:

- `Domain`: the records. A question has a number, an optional image, choices
  and a 1-based correct answer. There are also the student's view of a
  question, an answer, a paper, a stored result and an admin account.
- `Database`: the three SQLite tables as one `Store` value. Its `Valid`
  predicate collects the table constraints. These are the grade and semester
  CHECKs, one paper per (grade, semester), the result-to-paper foreign key and
  unique admin usernames. The module also holds the `INSERT OR IGNORE` admin
  seeding.
- `Grading`: how a submission is counted, and the rounding of the score. The
  rounding is `Math.round(c / t * 100)`, written in integers as
  `(200c + t) / (2t)`.
- `Server`: the request handlers. These are the paper upsert, the student's
  answer-free paper, grading a submission, the joined result detail, and the
  filtered, newest-first result list. A handler takes a store (and the
  request time) and returns the new store with a response or an HTTP error.
- `StudentInfo`: the phone formatter and the form validation of the student
  info page.
- `AdminCreateTest`: the 25-slot authoring wizard and what its save sends.
- `StudentTest`: the one-question-at-a-time runner and its submission payload.
- `AdminResultDetail`: the per-question marking, choice highlighting and
  percentage of the admin's result page.
- `StudentResult`: the student's result page: the message tier, the wrong
  count, the percentage and the guard against a missing score.
- `Findings`: two places where the code as written departs from what the rest
  of the system evidently intends. Each is shown on a concrete input and paired
  with a corrected definition (see "## Findings").

JavaScript truthiness is modelled explicitly:

- A number field the handlers test with `!x` is an `Option<int>`. It fails
  when it is `None` (missing, `null`, `NaN`) or `Some(0)`.
- A string field fails when it is missing or `""`.
- An answers array fails only when it is missing, because an empty array is
  truthy.

## Model

| member | source | states |
|---|---|---|
| Text.Digits | src/pages/student/StudentInfo.tsx:16 | `replace(/[^\d]/g, '')` keeps only digits, is never longer than its input, returns an all-digit string unchanged and drops a string with no digit entirely; with `Text.DigitsAppend` this fixes the result for every input: the digits in their original order with every non-digit removed |
| Text.DigitsAppend | src/pages/student/StudentInfo.tsx:16 | digit extraction distributes over concatenation |
| Text.TrimEmptyIffBlank | src/pages/student/StudentInfo.tsx:31 | `trim()` yields the empty string exactly when every character is JavaScript whitespace |
| Seqs.FirstIndex | server/index.ts:279 | the one linear search every lookup uses: the position of the first element satisfying the test, or the length when none does |
| Grading.QuestionIndex | server/index.ts:279 | `questions.find` by number returns the first question with that number, or none when no question has it |
| Grading.CountCorrect | server/index.ts:276-283 | the correct count is at most the number of answers; it is 0 exactly when no answer matches its question's correct choice, and all answers exactly when every one does |
| Grading.CountCorrectAppend | server/index.ts:278-283 | grading a concatenation adds the counts of the parts, so each answer is judged on its own |
| Grading.UnmatchedAnswerIgnored | server/index.ts:279-280 | an answer whose number matches no question changes nothing in the count |
| Grading.RoundPercent | server/index.ts:286 | the score is within half a point of 100·c/t, rounding halves up; it is at most 100 when c ≤ t, 100 at c = t and 0 at c = 0 |
| Grading.RoundPercentUnique | server/index.ts:286 | the rounded score is the only integer within that half-point window |
| Grading.RoundPercentMonotone | server/index.ts:286 | more correct answers never lower the score |
| Grading.ShownPercent | src/pages/admin/AdminResultDetail.tsx:87-88 | both result pages show the server's rounding of correct count over total, within 0..100 when the count does not exceed the total, and no finite percentage when the total is 0, NaN at 0/0 and Infinity otherwise (also src/pages/student/StudentResult.tsx line 19) |
| Grading.CountCorrectAtMostHits | server/index.ts:278-283 | the count is at most the number of matching (question, answer) pairs, with equality when question numbers are distinct |
| Grading.DistinctAnswersScoreAtMostHundred | server/index.ts:275-286 | when no question number is answered twice, the count is at most the paper's question count and the score at most 100 |
| Database.ValidMeansConstraints | server/database.ts:28-59 | a valid store has every paper's grade in 1..6, semester in {1, 2} and at least one question, no two papers with one (grade, semester), every result naming a stored paper, and no two admins with one username |
| Database.EmptyStore | server/database.ts:25-63 | freshly created tables are empty and satisfy every constraint |
| Database.PaperIndex | server/index.ts:112 | the lookup by (grade, semester) finds the first row with that key, or none |
| Database.PaperIdIndex | server/index.ts:266-267 | the lookup by paper id finds a row exactly when a row has that id |
| Database.SeedAdmin | server/database.ts:65-69 | seeding keeps the store valid and ensures the username exists; an existing account is left untouched, otherwise exactly one row with the given password is appended |
| Database.SeedAdminIdempotent | server/database.ts:68 | running initialisation twice leaves the store as after one run |
| Database.SeedAdminKeepsPassword | server/database.ts:68 | reseeding with another password keeps the first password |
| Server.SavePaper | server/index.ts:102-129 | a missing or zero grade or semester, missing questions or an empty list gives 400 with nothing written; an out-of-range new key gives 500 with nothing written; otherwise success; the store stays valid, so every stored paper has a question and keys in range |
| Server.SavePaperUpserts | server/index.ts:112-124 | after a save exactly one row has the key and holds the new questions; an existing row keeps its id and position, otherwise one row is appended under the next id; rows of other keys are unchanged |
| Server.StudentView | server/index.ts:234-239 | the student's questions have the paper's length and order, each keeping number, image and choices |
| Server.StudentViewHidesAnswers | server/index.ts:234-239 | papers differing only in their correct answers look identical to a student |
| Server.FetchStudentPaper | server/index.ts:226-253 | 404 exactly when no paper has the key, otherwise that paper's id and key with its answer-free questions |
| Server.SubmitTest | server/index.ts:256-317 | a missing field gives 400, an unknown paper 404, and either writes nothing; every complete request naming a stored paper succeeds, and then exactly one row is appended carrying the request's fields, the correct count and the rounded score over the paper's question count, which is reported as the total |
| Server.SubmitScoreAtMostHundred | server/index.ts:275-286 | a graded submission with distinct question numbers reports a correct count at most the total and a score at most 100 |
| Server.FetchResultDetail | server/index.ts:198-221 | 404 exactly when no result has the id; otherwise that result joined with its paper's current questions |
| Server.Where | server/index.ts:156-177 | the WHERE clause keeps a row exactly when the search is empty or the name or phone contains it case-insensitively, and the grade and semester filters are empty or equal |
| Server.OrderByNewest | server/index.ts:179 | `ORDER BY taken_at DESC` is a permutation of its input sorted newest first |
| Server.ListResults | server/index.ts:153-185 | the listing holds exactly the stored rows that pass the filters, each as often as it is stored, newest first |
| Server.WhereKeepsMultiplicity | server/index.ts:160-177 | a row that passes the filters is kept as often as it occurs |
| StudentInfo.FormatPhone | src/pages/student/StudentInfo.tsx:15-20 | the output holds only digits and hyphens, its digits are the input's first 11 digits, it is at most 13 long, and hyphens sit after the 3rd and 7th digit as the digit count allows |
| StudentInfo.FormatPhoneIdempotent | src/pages/student/StudentInfo.tsx:15-20 | formatting a formatted number changes nothing |
| StudentInfo.FormatPhoneMatchesPattern | src/pages/student/StudentInfo.tsx:15-20 | the formatted number passes `010-dddd-dddd` exactly when the input has at least 11 digits starting 010 |
| StudentInfo.WellFormedPhoneIsFixed | src/pages/student/StudentInfo.tsx:37 | a number already in the required shape is left unchanged by the formatter |
| StudentInfo.ValidateForm | src/pages/student/StudentInfo.tsx:28-51 | the form passes exactly when the trimmed name is non-empty, the phone matches the pattern and grade and semester are chosen; an empty phone gives the "required" error and never the format error |
| AdminCreateTest.Initial | src/pages/admin/AdminCreateTest.tsx:13-23 | the wizard starts on the select step with 25 slots numbered 1..25, each with four empty choices, answer 0 and no image, none complete |
| AdminCreateTest.SelectGrade | src/pages/admin/AdminCreateTest.tsx:54-56 | choosing a grade sets it and nothing else |
| AdminCreateTest.SelectSemester | src/pages/admin/AdminCreateTest.tsx:58-60 | choosing a semester sets it and nothing else |
| AdminCreateTest.Start | src/pages/admin/AdminCreateTest.tsx:62-68 | the create step is entered exactly when grade and semester are both chosen |
| AdminCreateTest.IsCompleteIffFilled | src/pages/admin/AdminCreateTest.tsx:133-138 | a question is complete exactly when no choice is blank (white space only) and an answer is picked; the same test filters the save at lines 170-172 |
| AdminCreateTest.Next | src/pages/admin/AdminCreateTest.tsx:140-149 | the slot advances by one exactly when the current question is complete and it is not the last slot; the index stays in 0..24 |
| AdminCreateTest.Prev | src/pages/admin/AdminCreateTest.tsx:151-155 | the slot steps back only from a slot above 0 |
| AdminCreateTest.UpdateCurrent | src/pages/admin/AdminCreateTest.tsx:73-75 | writing the current slot changes that slot only, keeps the step, index, grade and semester, and keeps the page valid when the new question keeps the slot's number, four choices and an answer in 0..4 |
| AdminCreateTest.ChangeChoice | src/pages/admin/AdminCreateTest.tsx:72-76 | only the given choice of the current question changes; the step, index, grade, semester and every other slot are kept |
| AdminCreateTest.ChangeAnswer | src/pages/admin/AdminCreateTest.tsx:78-82 | the answer button at index i stores i + 1, a value in 1..4, on the current question only, and nothing else of the page changes |
| AdminCreateTest.AttachImage | src/pages/admin/AdminCreateTest.tsx:113-116 | an uploaded image goes on the slot that was current when the upload began; no other slot and none of the page's other state changes |
| AdminCreateTest.RemoveImage | src/pages/admin/AdminCreateTest.tsx:127-131 | only the current question loses its image; the rest of the page is unchanged |
| AdminCreateTest.Filter | src/pages/admin/AdminCreateTest.tsx:170-172 | the filter keeps exactly the questions satisfying the predicate |
| AdminCreateTest.FilterKeepsMultiplicity | src/pages/admin/AdminCreateTest.tsx:170-172 | each question satisfying the predicate is kept as often as it occurs, and every other is dropped |
| AdminCreateTest.FilterAppend | src/pages/admin/AdminCreateTest.tsx:170-172 | filtering a concatenation is the concatenation of the filtered parts, so what is kept keeps its relative order for every input |
| AdminCreateTest.FilterKeepsOrder | src/pages/admin/AdminCreateTest.tsx:170-172 | when question numbers strictly increase, they still do after filtering |
| AdminCreateTest.Save | src/pages/admin/AdminCreateTest.tsx:168-194 | saving is refused exactly when no question is complete; otherwise it sends the chosen grade and semester with exactly the complete questions, unchanged, with their own numbers, in slot order |
| AdminCreateTest.SaveAfterGapIsNotConsecutive | src/pages/admin/AdminCreateTest.tsx:170-172 | leaving a slot incomplete before a complete one saves a paper whose numbers are not 1..n |
| AdminCreateTest.SavedNumbersDistinct | src/pages/admin/AdminCreateTest.tsx:170-172 | a saved paper never repeats a question number |
| StudentTest.Begin | src/pages/student/StudentTest.tsx:43 | the answers array starts as one 0 per question, on the first question with nothing selected |
| StudentTest.SelectChoice | src/pages/student/StudentTest.tsx:62-64 | choice button i selects the 1-based choice i + 1 and changes nothing else |
| StudentTest.Next | src/pages/student/StudentTest.tsx:66-82 | nothing happens while no choice is selected; otherwise the choice is recorded for the current question only, then the last question opens the confirmation and any other moves on with the selection cleared |
| StudentTest.CancelConfirm | src/pages/student/StudentTest.tsx:196 | cancelling the dialog closes it and leaves the rest |
| StudentTest.ConfirmingMeansAllAnswered | src/pages/student/StudentTest.tsx:74-76 | once the confirmation is open every question has a recorded choice |
| StudentTest.Payload | src/pages/student/StudentTest.tsx:97-100 | one answer per position, numbered position + 1, carrying that position's choice |
| StudentTest.PayloadAgreesWhenConsecutive | src/pages/student/StudentTest.tsx:97-100 | the positional numbering equals the paper's own numbering exactly when the paper is numbered 1..n |
| StudentTest.PayloadByNumberGradesPositionally | server/index.ts:278-283 | answers labelled with the shown questions' own numbers are graded by the server as the count of positions holding the correct choice |
| AdminResultDetail.StudentAnswer | src/pages/admin/AdminResultDetail.tsx:130 | the student's answer for a question is the first one with its number, and none exactly when no answer has it |
| AdminResultDetail.IsMarkedCorrect | src/pages/admin/AdminResultDetail.tsx:130-131 | a question is marked correct exactly when the first answer with its number selects the correct choice; with no answer it is wrong |
| AdminResultDetail.MarkedCorrectCount | src/pages/admin/AdminResultDetail.tsx:129-131 | the number of questions marked correct is at most the question count, all exactly when each is marked, none exactly when none is |
| AdminResultDetail.MarkedCountMatchesServer | src/pages/admin/AdminResultDetail.tsx:129-131 | with distinct numbers on both sides, the questions marked correct number exactly the server's correct count |
| AdminResultDetail.DetailPercentMatchesStoredScore | src/pages/admin/AdminResultDetail.tsx:87-88 | a result opened right after grading shows a percentage equal to its stored score |
| AdminResultDetail.ResavedPaperRegradesOldResult | server/index.ts:201-204 | after the paper is saved again under its key, an older result with stored score 100 and count 1 is shown at 50% with no question marked correct, because the page uses the paper's current questions |
| AdminResultDetail.StyleOf | src/pages/admin/AdminResultDetail.tsx:149-168 | a choice is styled as the answer exactly when it is the correct one, and as a wrong pick exactly when it is selected and not correct |
| AdminResultDetail.OneAnswerChoice | src/pages/admin/AdminResultDetail.tsx:151 | at most one choice is styled as the answer |
| AdminResultDetail.StudentLabelIffWrong | src/pages/admin/AdminResultDetail.tsx:173-175 | for an answer naming one of the choices, the "student choice" label appears on some choice exactly when the question is marked wrong |
| StudentResult.TierOf | src/pages/student/StudentResult.tsx:24-33 | the message is excellent from 90, good from 70 below 90, and retry below 70 |
| StudentResult.TierMonotone | src/pages/student/StudentResult.tsx:24-33 | a higher score never gets a worse message |
| StudentResult.Render | src/pages/student/StudentResult.tsx:7-19 | the page redirects exactly when no score arrived (a score of 0 is shown); otherwise it shows the score's tier, the counts with correct + wrong = total, and the percentage |
| StudentResult.PageAgreesWithServer | src/pages/student/StudentResult.tsx:19 | fed a graded response with distinct question numbers, the page's percentage equals the score and the wrong count lies in 0..total |
| Findings.RepeatedAnswerScoresTwoHundred | server/index.ts:278-286 | one question answered twice, correctly, is stored with correct count 2 and score 200, and the result page shows -1 wrong |
| Findings.CorrectedCount | src/pages/admin/AdminResultDetail.tsx:129-131 | counting each question once never exceeds the question count and equals the server's count when numbers are distinct |
| Findings.CorrectedScore | server/index.ts:286 | the corrected score is at most 100 for every submission, equals the server's score when numbers are distinct, and is 100 when every question is correct |
| Findings.RepeatedAnswerCorrected | server/index.ts:278-286 | the repeated submission gets the corrected score 100 |
| Findings.GappedPaperHalvesFullMarks | src/pages/student/StudentTest.tsx:97-100 | on a paper numbered 1 and 3, picking both correct choices is graded 1 of 2, a score of 50 |
| Findings.CorrectedPayloadFullMarks | src/pages/student/StudentTest.tsx:97-100 | with answers labelled by the shown questions' own numbers, all correct picks score 100 on any paper without repeated numbers |

## Left out

- Login (`POST /api/admin/login`) is not modelled. It is a plaintext equality lookup. The `admin_logged_in` redirect is not modelled either.
- Image upload is not modelled: multer disk storage, file names from `Date.now()`/`Math.random()`, the MIME/extension filter and the size limit. Only its effect on the wizard (`AdminCreateTest.AttachImage`) is kept.
- Browser I/O is not modelled: `fetch`, `localStorage` (including the wizard's temporary save and restore), `window.confirm`, `alert`, `beforeunload` and navigation. Where a page only proceeds after a confirm, the model shows the state just before the request.
- `GET /api/admin/test-papers/:grade/:semester` and `GET /api/admin/test-papers` are not modelled. They are read-only lookups with no logic beyond `PaperIndex`.
- `GET /api/admin/results/student/:name/:phone` is not modelled. It is an equality filter with the same ordering as `ListResults`.
- Rendering is not modelled: Tailwind classes, date formatting, progress bars, and the display-only pages (home, welcome, admin home, results table).
- JSON `stringify`/`parse` of questions and answers is treated as the identity.
- `created_at`/`taken_at` are not read from the database clock. The request time is a parameter (`now`).
- Floating point is not modelled. `Math.round(c / t * 100)` is taken to equal integer half-up rounding `(200c + t) / (2t)`. The two agree for every total below 40, which covers every paper the 25-slot authoring page can save. From 40 questions on they can differ. For example, at 23 of 40 the double `23 / 40 * 100` is just under 57.5, so `Math.round` gives 57 where the model gives 58. A paper of 40 or more questions can only come from a direct request to the server.
- Server.Where: the search text is matched as a literal substring. The `%` and `_` characters inside it, which SQLite `LIKE` treats as wildcards, are not modelled. Case folding is ASCII only, as SQLite's default `LIKE`.
- Server.ResultFilter: an empty query value is `None` and any other value is compared as a number. A non-numeric grade or semester in the query string is not modelled.
- Server.SavePaper: request fields are taken as already typed. A non-integer grade such as 1.5 passes the handler's checks and the table's `BETWEEN 1 AND 6` CHECK, and SQLite stores it. A semester of 1.5 is refused by the `IN (1, 2)` CHECK. A `questions` value that is an object rather than an array has no `length`, passes the check and is stored as JSON. `Option<int>` and `seq<Question>` cannot represent either case.
- Server.SubmitTest: request fields are taken as already typed. A non-integer grade, an answers value that is not an array, and a `test_paper_id` that is a string are not modelled. Grades and semesters of a result row are stored unchecked, as the table has no CHECK on them.
- AdminResultDetail.DetailPercentMatchesStoredScore: holds only right after grading. Results are not snapshotted, so a later save of the same (grade, semester) changes the questions the page marks an older result against (`AdminResultDetail.ResavedPaperRegradesOldResult`).
- AdminCreateTest.AttachImage: the upload is awaited, and the page stays usable meanwhile. The model takes the transition in the state from when the upload began and does not model edits made while it runs.
- Server.OrderByNewest: rows with equal `taken_at` keep table order. SQLite leaves their order unspecified, and the contract states only sortedness and permutation.
- StudentTest.Begin: the answers array is empty before the loading effect runs. A paper without questions is not modelled, because the server never stores one.
- AdminCreateTest.SelectGrade: grade and semester are kept as numbers. The page holds them as strings and sends `parseInt` of them.

## Findings

| source | as written | input that shows it | evidently intended | confidence | as-written member | corrected member |
|---|---|---|---|---|---|---|
| server/index.ts:278-286 | every submitted answer whose question matches is counted, so answers repeating a question number are counted more than once | a one-question paper with correct choice 2, and answers `[{1, 2}, {1, 2}]`: correct count 2, score 200, the result page shows -1 wrong | each question counts at most once, as the admin detail page marks it, so the score is at most 100 | high (not executed) | Findings.RepeatedAnswerScoresTwoHundred | Findings.CorrectedScore |
| src/pages/student/StudentTest.tsx:97-100 | the payload numbers answers 1..n by position, but a paper saved from a wizard with an incomplete slot keeps its gapped numbers (`AdminCreateTest.SaveAfterGapIsNotConsecutive`) | a paper numbered 1 and 3 with correct choices 1 and 2, answered 1 then 2: correct count 1, score 50 | each answer carries the number of the question it was given for, so every correct pick counts | high (not executed) | Findings.GappedPaperHalvesFullMarks | Findings.CorrectedPayloadFullMarks |

=== FILE: admin_create_test.dfy ===
/**
 * The admin authoring page: pick grade and semester, then fill 25 question
 * slots one at a time, and save the completed ones. Every handler is a pure
 * transition of the page state.
 */
module AdminCreateTest {
  import opened Wrappers
  import opened Text
  import opened Domain
  import Database
  import Server

  /** The page always offers this many question slots. */
  const Slots := 25

  datatype Step = SelectStep | CreateStep

  /**
   * The page state. An unset grade or semester (the empty string in the
   * page) is None; a button sets it to the number it shows.
   */
  datatype Wizard = Wizard(
    step: Step,
    grade: Option<int>,
    semester: Option<int>,
    current: int,
    questions: seq<Question>)

  function BlankQuestion(n: int): Question {
    Question(n, None, ["", "", "", ""], 0)
  }

  /** `isCurrentQuestionValid`, and the filter in `handleSave`: every choice has a non-space character and an answer is picked. */
  predicate IsComplete(q: Question) {
    (forall i :: 0 <= i < |q.choices| ==> Trim(q.choices[i]) != "") && q.answer > 0
  }

  /** A question is complete exactly when no choice is blank (white space only) and an answer is picked. */
  lemma IsCompleteIffFilled(q: Question)
    ensures IsComplete(q) <==> (forall i :: 0 <= i < |q.choices| ==> !IsBlank(q.choices[i])) && q.answer > 0
  {
    forall i | 0 <= i < |q.choices|
      ensures Trim(q.choices[i]) == "" <==> IsBlank(q.choices[i])
    {
      TrimEmptyIffBlank(q.choices[i]);
    }
  }

  /** What every handler keeps true: the slot index stays on the page and the slots keep their numbers and four choices. */
  predicate Valid(w: Wizard) {
    && 0 <= w.current < Slots
    && |w.questions| == Slots
    && (forall i :: 0 <= i < Slots ==>
          && w.questions[i].questionNumber == i + 1
          && |w.questions[i].choices| == 4
          && 0 <= w.questions[i].answer <= 4)
    && (w.grade.Some? ==> Database.GradeInRange(w.grade.value))
    && (w.semester.Some? ==> Database.SemesterInRange(w.semester.value))
  }

  /** The state on first render: 25 blank slots numbered 1..25, none of them complete. */
  function Initial(): (w: Wizard)
    ensures Valid(w)
    ensures w.step == SelectStep && w.current == 0 && w.grade.None? && w.semester.None?
    ensures forall i :: 0 <= i < Slots ==>
      w.questions[i].choices == ["", "", "", ""] && w.questions[i].answer == 0 && w.questions[i].imageUrl.None?
    ensures forall i :: 0 <= i < Slots ==> !IsComplete(w.questions[i])
  {
    var qs := seq(Slots, i requires 0 <= i < Slots => BlankQuestion(i + 1));
    assert forall i :: 0 <= i < Slots ==> Trim(qs[i].choices[0]) == "";
    Wizard(SelectStep, None, None, 0, qs)
  }

  /** `handleGradeSelect`: the buttons offer grades 1..6. */
  function SelectGrade(w: Wizard, g: int): (w': Wizard)
    requires Valid(w) && Database.GradeInRange(g)
    ensures Valid(w') && w'.grade == Some(g)
    ensures w' == w.(grade := w'.grade)
  {
    w.(grade := Some(g))
  }

  /** `handleSemesterSelect`: the buttons offer semesters 1 and 2. */
  function SelectSemester(w: Wizard, s: int): (w': Wizard)
    requires Valid(w) && Database.SemesterInRange(s)
    ensures Valid(w') && w'.semester == Some(s)
    ensures w' == w.(semester := w'.semester)
  {
    w.(semester := Some(s))
  }

  /** `handleStart`: move to authoring only once both grade and semester are chosen. */
  function Start(w: Wizard): (w': Wizard)
    requires Valid(w)
    ensures Valid(w')
    ensures w' == w.(step := w'.step)
    ensures w.step == SelectStep ==> (w'.step == CreateStep <==> w.grade.Some? && w.semester.Some?)
  {
    if w.grade.None? || w.semester.None? then w else w.(step := CreateStep)
  }

  /** `handleNext`: advance one slot, but only from a complete question and never past the last slot. */
  function Next(w: Wizard): (w': Wizard)
    requires Valid(w)
    ensures Valid(w')
    ensures w' == w.(current := w'.current)
    ensures w'.current == w.current || w'.current == w.current + 1
    ensures w'.current == w.current + 1 <==> IsComplete(w.questions[w.current]) && w.current < Slots - 1
  {
    if !IsComplete(w.questions[w.current]) then w
    else if w.current < Slots - 1 then w.(current := w.current + 1)
    else w
  }

  /** `handlePrev`: step back one slot unless on the first. */
  function Prev(w: Wizard): (w': Wizard)
    requires Valid(w)
    ensures Valid(w')
    ensures w' == w.(current := w'.current)
    ensures w'.current == (if w.current > 0 then w.current - 1 else 0)
  {
    if w.current > 0 then w.(current := w.current - 1) else w
  }

  /**
   * Replace the current question: only that slot changes, and the page stays
   * valid when the new question keeps the slot's number, four choices and an
   * answer in 0..4.
   */
  function UpdateCurrent(w: Wizard, q: Question): (w': Wizard)
    requires Valid(w)
    ensures w' == w.(questions := w'.questions)
    ensures |w'.questions| == Slots && w'.questions[w.current] == q
    ensures forall i :: 0 <= i < Slots && i != w.current ==> w'.questions[i] == w.questions[i]
    ensures q.questionNumber == w.current + 1 && |q.choices| == 4 && 0 <= q.answer <= 4 ==> Valid(w')
  {
    w.(questions := w.questions[w.current := q])
  }

  /** `handleChoiceChange`: write one choice of the current question. */
  function ChangeChoice(w: Wizard, index: int, value: string): (w': Wizard)
    requires Valid(w) && 0 <= index < 4
    ensures Valid(w')
    ensures w' == w.(questions := w'.questions)
    ensures var q, q' := w.questions[w.current], w'.questions[w.current];
      && q'.choices[index] == value
      && (forall j :: 0 <= j < 4 && j != index ==> q'.choices[j] == q.choices[j])
      && q'.questionNumber == q.questionNumber && q'.answer == q.answer && q'.imageUrl == q.imageUrl
    ensures forall i :: 0 <= i < Slots && i != w.current ==> w'.questions[i] == w.questions[i]
  {
    var q := w.questions[w.current];
    UpdateCurrent(w, q.(choices := q.choices[index := value]))
  }

  /** `handleAnswerChange`: the answer buttons 0..3 store the 1-based answer. */
  function ChangeAnswer(w: Wizard, index: int): (w': Wizard)
    requires Valid(w) && 0 <= index < 4
    ensures Valid(w')
    ensures w' == w.(questions := w'.questions)
    ensures 1 <= w'.questions[w.current].answer <= 4
    ensures w'.questions[w.current] == w.questions[w.current].(answer := index + 1)
    ensures forall i :: 0 <= i < Slots && i != w.current ==> w'.questions[i] == w.questions[i]
  {
    var q := w.questions[w.current];
    UpdateCurrent(w, q.(answer := index + 1))
  }

  /**
   * The success branch of `handleImageUpload`: the uploaded file's URL goes on
   * the slot that was current when the upload began. The handler captures that
   * index before awaiting the upload, so this transition is taken from the
   * state at that moment.
   */
  function AttachImage(w: Wizard, url: string): (w': Wizard)
    requires Valid(w)
    ensures Valid(w')
    ensures w' == w.(questions := w'.questions)
    ensures w'.questions[w.current] == w.questions[w.current].(imageUrl := Some(url))
    ensures forall i :: 0 <= i < Slots && i != w.current ==> w'.questions[i] == w.questions[i]
  {
    var q := w.questions[w.current];
    UpdateCurrent(w, q.(imageUrl := Some(url)))
  }

  /** `handleRemoveImage`: only the current question loses its image. */
  function RemoveImage(w: Wizard): (w': Wizard)
    requires Valid(w)
    ensures Valid(w')
    ensures w' == w.(questions := w'.questions)
    ensures w'.questions[w.current].imageUrl.None?
    ensures w'.questions[w.current] == w.questions[w.current].(imageUrl := None)
    ensures forall i :: 0 <= i < Slots && i != w.current ==> w'.questions[i] == w.questions[i]
  {
    var q := w.questions[w.current];
    UpdateCurrent(w, q.(imageUrl := None))
  }

  predicate IncreasingNumbers(qs: seq<Question>) {
    forall k, l :: 0 <= k < l < |qs| ==> qs[k].questionNumber < qs[l].questionNumber
  }

  /** `qs.filter(keep)`: the questions satisfying `keep`, in their original order. */
  function Filter(qs: seq<Question>, keep: Question -> bool): (r: seq<Question>)
    ensures |r| <= |qs|
    ensures forall x :: x in r <==> x in qs && keep(x)
  {
    if |qs| == 0 then []
    else
      assert qs == [qs[0]] + qs[1..];
      if keep(qs[0]) then [qs[0]] + Filter(qs[1..], keep) else Filter(qs[1..], keep)
  }

  /** Filtering keeps every question satisfying `keep` exactly as often as it occurs, and drops the rest. */
  lemma {:induction false} FilterKeepsMultiplicity(qs: seq<Question>, keep: Question -> bool)
    ensures forall x :: multiset(Filter(qs, keep))[x] == (if keep(x) then multiset(qs)[x] else 0)
  {
    if |qs| > 0 {
      FilterKeepsMultiplicity(qs[1..], keep);
      assert qs == [qs[0]] + qs[1..];
      assert multiset(qs) == multiset{qs[0]} + multiset(qs[1..]);
    }
  }

  /**
   * Filtering a concatenation filters each part in place: what is kept from
   * `a` comes before what is kept from `b`, so the filter keeps the relative
   * order of what it keeps. With the one-element case below this fixes the
   * result completely.
   */
  lemma {:induction false} FilterAppend(a: seq<Question>, b: seq<Question>, keep: Question -> bool)
    ensures Filter(a + b, keep) == Filter(a, keep) + Filter(b, keep)
  {
    if |a| == 0 {
      assert a + b == b;
    } else {
      assert (a + b)[0] == a[0] && (a + b)[1..] == a[1..] + b;
      FilterAppend(a[1..], b, keep);
    }
  }

  /** A single question is kept exactly when it satisfies `keep`. */
  lemma FilterSingle(x: Question, keep: Question -> bool)
    ensures Filter([x], keep) == if keep(x) then [x] else []
  {
    assert [x][1..] == [];
  }

  /** Filtering questions whose numbers strictly increase leaves numbers that still strictly increase. */
  lemma {:induction false} FilterKeepsOrder(qs: seq<Question>, keep: Question -> bool)
    requires IncreasingNumbers(qs)
    ensures IncreasingNumbers(Filter(qs, keep))
  {
    if |qs| > 0 {
      var rest := Filter(qs[1..], keep);
      assert IncreasingNumbers(qs[1..]);
      FilterKeepsOrder(qs[1..], keep);
      forall k | 0 <= k < |rest|
        ensures qs[0].questionNumber < rest[k].questionNumber
      {
        assert rest[k] in rest;
        assert rest[k] in qs[1..];
        var i :| 0 <= i < |qs[1..]| && qs[1..][i] == rest[k];
        assert qs[i + 1] == rest[k];
      }
    }
  }

  /**
   * `handleSave`: send the complete questions with their own numbers, or
   * refuse when there are none. Grade and semester go out as chosen.
   */
  function Save(w: Wizard): (r: Option<Server.PaperRequest>)
    requires Valid(w)
    ensures r.None? <==> forall i :: 0 <= i < Slots ==> !IsComplete(w.questions[i])
    ensures r.Some? ==>
      && r.value.grade == w.grade && r.value.semester == w.semester && r.value.questions.Some?
      && var qs := r.value.questions.value;
      && |qs| > 0
      && (forall k :: 0 <= k < |qs| ==>
            && IsComplete(qs[k]) && 1 <= qs[k].questionNumber <= Slots
            && qs[k] == w.questions[qs[k].questionNumber - 1])
      && (forall i :: 0 <= i < Slots && IsComplete(w.questions[i]) ==> w.questions[i] in qs)
      && IncreasingNumbers(qs)
  {
    var qs := Filter(w.questions, IsComplete);
    CompletedFacts(w);
    if |qs| == 0 then None else Some(Server.PaperRequest(w.grade, w.semester, Some(qs)))
  }

  /** Every saved question is complete and is the slot its own number names. */
  lemma CompletedAreSlots(w: Wizard)
    requires Valid(w)
    ensures var qs := Filter(w.questions, IsComplete);
      forall k :: 0 <= k < |qs| ==>
        && IsComplete(qs[k]) && 1 <= qs[k].questionNumber <= Slots
        && qs[k] == w.questions[qs[k].questionNumber - 1]
  {
    var qs := Filter(w.questions, IsComplete);
    forall k | 0 <= k < |qs|
      ensures IsComplete(qs[k]) && 1 <= qs[k].questionNumber <= Slots
      ensures qs[k] == w.questions[qs[k].questionNumber - 1]
    {
      assert qs[k] in qs;
      var i :| 0 <= i < |w.questions| && w.questions[i] == qs[k];
    }
  }

  lemma {:induction false} CompletedFacts(w: Wizard)
    requires Valid(w)
    ensures var qs := Filter(w.questions, IsComplete);
      && (|qs| == 0 <==> forall i :: 0 <= i < Slots ==> !IsComplete(w.questions[i]))
      && (forall k :: 0 <= k < |qs| ==>
            && IsComplete(qs[k]) && 1 <= qs[k].questionNumber <= Slots
            && qs[k] == w.questions[qs[k].questionNumber - 1])
      && (forall i :: 0 <= i < Slots && IsComplete(w.questions[i]) ==> w.questions[i] in qs)
      && IncreasingNumbers(qs)
  {
    var qs := Filter(w.questions, IsComplete);
    FilterKeepsOrder(w.questions, IsComplete);
    CompletedAreSlots(w);
    if |qs| > 0 {
      assert IsComplete(qs[0]) && 1 <= qs[0].questionNumber <= Slots;
      assert qs[0] == w.questions[qs[0].questionNumber - 1];
    }
  }

  /**
   * Leaving a slot incomplete before a complete one saves a paper whose
   * question numbers are not 1..n.
   */
  lemma SaveAfterGapIsNotConsecutive(w: Wizard, i: int, j: int)
    requires Valid(w)
    requires 0 <= i < j < Slots
    requires !IsComplete(w.questions[i]) && IsComplete(w.questions[j])
    ensures Save(w).Some?
    ensures !ConsecutivelyNumbered(Save(w).value.questions.value)
  {
    var qs := Save(w).value.questions.value;
    if i < |qs| {
      // the saved question at position i is complete, so it is not slot i
      assert qs[i] != w.questions[i];
      assert qs[i].questionNumber != i + 1;
    } else {
      // slot j sits before position i < j in the saved list
      var k :| 0 <= k < |qs| && qs[k] == w.questions[j];
      assert qs[k].questionNumber != k + 1;
    }
  }

  /** Every paper saved from the page numbers its questions distinctly. */
  lemma SavedNumbersDistinct(w: Wizard)
    requires Valid(w) && Save(w).Some?
    ensures DistinctQuestionNumbers(Save(w).value.questions.value)
  {
  }
}

=== FILE: admin_result_detail.dfy ===
/**
 * The admin's per-result page: each question of the paper is marked correct
 * or wrong by looking up the student's answer for its number, the choices
 * are highlighted, and the correct count is shown as a percentage.
 */
module AdminResultDetail {
  import opened Wrappers
  import opened Domain
  import opened Grading
  import opened Database
  import Seqs
  import Server

  /** `result.answers.find(a => a.question_number === n)`, as the position of the first match (`|answers|` when none). */
  function AnswerIndex(answers: seq<Answer>, n: int): (k: nat)
    ensures k <= |answers|
    ensures k < |answers| ==> answers[k].questionNumber == n
    ensures forall j :: 0 <= j < k ==> answers[j].questionNumber != n
  {
    Seqs.FirstIndex(answers, (a: Answer) => a.questionNumber == n)
  }

  /** Position `k` holds the first answer for question `n`. */
  predicate FirstFor(answers: seq<Answer>, k: int, n: int)
    requires 0 <= k < |answers|
  {
    answers[k].questionNumber == n && forall j :: 0 <= j < k ==> answers[j].questionNumber != n
  }

  /** `studentAnswer`: the student's first answer for this question, if any. */
  function StudentAnswer(q: Question, answers: seq<Answer>): (a: Option<Answer>)
    ensures a.None? <==> forall i :: 0 <= i < |answers| ==> answers[i].questionNumber != q.questionNumber
    ensures a.Some? ==> a.value.questionNumber == q.questionNumber && a.value in answers
    ensures a.Some? ==> exists k :: 0 <= k < |answers| && FirstFor(answers, k, q.questionNumber) && a.value == answers[k]
  {
    var k := AnswerIndex(answers, q.questionNumber);
    if k < |answers| then Some(answers[k]) else None
  }

  /** `isCorrect`: an answer for the question exists and its choice is the correct one; no answer is wrong. */
  function IsMarkedCorrect(q: Question, answers: seq<Answer>): (b: bool)
    ensures b <==> (exists k :: 0 <= k < |answers| && FirstFor(answers, k, q.questionNumber)
                               && answers[k].selectedAnswer == q.answer)
    ensures (forall i :: 0 <= i < |answers| ==> answers[i].questionNumber != q.questionNumber) ==> !b
  {
    var a := StudentAnswer(q, answers);
    var k := AnswerIndex(answers, q.questionNumber);
    assert forall k' :: 0 <= k' < |answers| && FirstFor(answers, k', q.questionNumber) ==> k' == k;
    a.Some? && a.value.selectedAnswer == q.answer
  }

  /** The number of questions the page marks correct. */
  function MarkedCorrectCount(qs: seq<Question>, answers: seq<Answer>): (c: nat)
    ensures c <= |qs|
    ensures c == |qs| <==> forall i :: 0 <= i < |qs| ==> IsMarkedCorrect(qs[i], answers)
    ensures c == 0 <==> forall i :: 0 <= i < |qs| ==> !IsMarkedCorrect(qs[i], answers)
  {
    if |qs| == 0 then 0
    else (if IsMarkedCorrect(qs[0], answers) then 1 else 0) + MarkedCorrectCount(qs[1..], answers)
  }

  lemma {:induction false} MarkedIsHit(q: Question, answers: seq<Answer>)
    requires DistinctAnswerNumbers(answers)
    ensures QuestionHits(q, answers) == (if IsMarkedCorrect(q, answers) then 1 else 0)
  {
    if |answers| > 0 {
      assert DistinctAnswerNumbers(answers[1..]);
      MarkedIsHit(q, answers[1..]);
      if answers[0].questionNumber == q.questionNumber {
        NoSuchNumberNoQuestionHits(q, answers[1..]);
        assert AnswerIndex(answers, q.questionNumber) == 0;
      } else {
        assert AnswerIndex(answers, q.questionNumber) == 1 + AnswerIndex(answers[1..], q.questionNumber);
        assert StudentAnswer(q, answers) == StudentAnswer(q, answers[1..]);
      }
    }
  }

  lemma {:induction false} MarkedCountIsHits(qs: seq<Question>, answers: seq<Answer>)
    requires DistinctAnswerNumbers(answers)
    ensures MarkedCorrectCount(qs, answers) == SumQuestionHits(qs, answers)
  {
    if |qs| > 0 {
      MarkedIsHit(qs[0], answers);
      MarkedCountIsHits(qs[1..], answers);
    }
  }

  /**
   * When neither list repeats a question number, the number of questions
   * marked correct on this page equals the `correct_count` the server stored.
   */
  lemma {:induction false} MarkedCountMatchesServer(qs: seq<Question>, answers: seq<Answer>)
    requires DistinctQuestionNumbers(qs) && DistinctAnswerNumbers(answers)
    ensures MarkedCorrectCount(qs, answers) == CountCorrect(qs, answers)
  {
    MarkedCountIsHits(qs, answers);
    SumHitsSwap(answers, qs);
    CountCorrectAtMostHits(qs, answers);
  }

  /**
   * Opened right after grading, the page's percentage is the stored score:
   * both are the rounded share of correct answers over the paper's questions.
   */
  lemma {:induction false} DetailPercentMatchesStoredScore(s: Store, req: Server.SubmitRequest, now: int)
    requires Valid(s)
    requires Server.SubmitRequestComplete(req) && HasPaperId(s.papers, req.testPaperId.value)
    ensures var (s', g) := Server.SubmitTest(s, req, now);
      var d := Server.FetchResultDetail(s', g.value.id);
      && d.Success?
      && ShownPercent(d.value.result.correctCount, |d.value.questions|) == Some(d.value.result.score)
  {
    var (s', g) := Server.SubmitTest(s, req, now);
    var n := |s.results|;
    assert s'.results[n].id == g.value.id;
    assert forall j :: 0 <= j < n ==> s'.results[j] == s.results[j];
    var k := Server.ResultIndex(s'.results, g.value.id);
    assert k == n;
  }

  const FirstPaper := [Question(1, None, ["1", "2", "3", "4"], 2)]
  const ResavedPaper := [Question(1, None, ["1", "2", "3", "4"], 3), Question(2, None, ["1", "2", "3", "4"], 1)]
  const FirstStore := Store([Paper(1, 1, 1, 0, FirstPaper)], 2, [], 1, [], 1)
  const FullMarks := Server.SubmitRequest(Some("kim"), Some("010-1234-5678"), Some(1), Some(1), Some(1), Some([Answer(1, 2)]))

  const OldResult := TestResult(1, "kim", "010-1234-5678", 1, 1, 1, 0, [Answer(1, 2)], 100, 1)
  const GradedStore := Store([Paper(1, 1, 1, 0, FirstPaper)], 2, [OldResult], 2, [], 1)
  const ResavedStore := Store([Paper(1, 1, 1, 1, ResavedPaper)], 2, [OldResult], 2, [], 1)

  /** Grading the full-marks request against the one-question paper stores a 100 with correct count 1. */
  lemma FullMarksGraded()
    ensures Server.SubmitTest(FirstStore, FullMarks, 0).0 == GradedStore
  {
    assert Valid(FirstStore);
    assert PaperIdIndex(FirstStore.papers, 1) == 0;
    assert CountCorrect(FirstPaper, [Answer(1, 2)]) == 1;
    RoundPercentUnique(1, 1, 100);
  }

  /** Saving two questions under the same (grade, semester) replaces the paper's questions and keeps its id and the results. */
  lemma ResaveReplacesQuestions()
    ensures Valid(GradedStore)
    ensures Server.SavePaper(GradedStore, Server.PaperRequest(Some(1), Some(1), Some(ResavedPaper)), 1).0 == ResavedStore
  {
    assert Valid(FirstStore);
    FullMarksGraded();
    assert PaperIndex(GradedStore.papers, 1, 1) == 0;
  }

  /**
   * The page joins a result with its paper's current questions, so once the
   * paper is saved again under the same key an older result is marked against
   * questions it never answered: a stored 100 with correct count 1 shows 50%
   * and no question marked correct.
   */
  lemma ResavedPaperRegradesOldResult()
    ensures var s1 := Server.SubmitTest(FirstStore, FullMarks, 0).0;
      var s2 := Server.SavePaper(s1, Server.PaperRequest(Some(1), Some(1), Some(ResavedPaper)), 1).0;
      var d := Server.FetchResultDetail(s2, 1);
      && d.Success? && d.value.result.score == 100 && d.value.result.correctCount == 1
      && ShownPercent(d.value.result.correctCount, |d.value.questions|) == Some(50)
      && MarkedCorrectCount(d.value.questions, d.value.result.answers) == 0
  {
    assert Valid(FirstStore);
    FullMarksGraded();
    ResaveReplacesQuestions();
    assert Valid(ResavedStore);
    assert Server.ResultIndex(ResavedStore.results, 1) == 0;
    assert PaperIdIndex(ResavedStore.papers, 1) == 0;
    RoundPercentUnique(1, 2, 50);
    assert !IsMarkedCorrect(ResavedPaper[0], [Answer(1, 2)]);
    assert StudentAnswer(ResavedPaper[1], [Answer(1, 2)]).None?;
  }

  // ---------------- choice highlighting ----------------

  /** `isSelected`: the student's answer picked choice `i` (choices are numbered from 0 on the page). */
  predicate IsSelectedChoice(q: Question, answers: seq<Answer>, i: int) {
    var a := StudentAnswer(q, answers);
    a.Some? && a.value.selectedAnswer == i + 1
  }

  /** `isAnswer`: choice `i` is the correct one. */
  predicate IsAnswerChoice(q: Question, i: int) {
    q.answer == i + 1
  }

  /** Green for the correct choice, red for a wrong pick, plain otherwise. */
  datatype ChoiceStyle = AnswerStyle | WrongPickStyle | PlainStyle

  function StyleOf(q: Question, answers: seq<Answer>, i: int): (st: ChoiceStyle)
    ensures st == AnswerStyle <==> IsAnswerChoice(q, i)
    ensures st == WrongPickStyle <==> IsSelectedChoice(q, answers, i) && !IsAnswerChoice(q, i)
  {
    if IsAnswerChoice(q, i) then AnswerStyle
    else if IsSelectedChoice(q, answers, i) then WrongPickStyle
    else PlainStyle
  }

  /** The "student choice" label: shown on a picked choice that is not the answer. */
  predicate ShowsStudentLabel(q: Question, answers: seq<Answer>, i: int) {
    IsSelectedChoice(q, answers, i) && !IsAnswerChoice(q, i)
  }

  /** At most one choice is highlighted as the answer. */
  lemma OneAnswerChoice(q: Question, answers: seq<Answer>, i: int, j: int)
    requires StyleOf(q, answers, i) == AnswerStyle && StyleOf(q, answers, j) == AnswerStyle
    ensures i == j
  {
  }

  /**
   * For a student whose answer names one of the question's choices, some
   * choice carries the "student choice" label exactly when the question is
   * marked wrong.
   */
  lemma StudentLabelIffWrong(q: Question, answers: seq<Answer>)
    requires StudentAnswer(q, answers).Some?
    requires 1 <= StudentAnswer(q, answers).value.selectedAnswer <= |q.choices|
    ensures (exists i :: 0 <= i < |q.choices| && ShowsStudentLabel(q, answers, i)) <==> !IsMarkedCorrect(q, answers)
  {
    var sel := StudentAnswer(q, answers).value.selectedAnswer;
    if !IsMarkedCorrect(q, answers) {
      assert ShowsStudentLabel(q, answers, sel - 1);
    }
  }
}

=== FILE: database.dfy ===
/**
 * The three SQLite tables as one immutable store: rows in insertion order,
 * each AUTOINCREMENT id as a counter. `Valid` collects the table constraints
 * together with what the handlers guarantee about the rows they write.
 */
module Database {
  import opened Domain
  import Seqs

  datatype Store = Store(
    papers: seq<Paper>,
    nextPaperId: int,
    results: seq<TestResult>,
    nextResultId: int,
    admins: seq<Admin>,
    nextAdminId: int)

  /** `CHECK(grade BETWEEN 1 AND 6)`. */
  predicate GradeInRange(g: int) {
    1 <= g <= 6
  }

  /** `CHECK(semester IN (1, 2))`. */
  predicate SemesterInRange(s: int) {
    s == 1 || s == 2
  }

  /** A stored paper satisfies both CHECK constraints and holds at least one question. */
  predicate PaperRowValid(p: Paper, nextId: int) {
    GradeInRange(p.grade) && SemesterInRange(p.semester) && |p.questions| > 0 && 1 <= p.id < nextId
  }

  predicate HasPaperId(papers: seq<Paper>, id: int) {
    exists i :: 0 <= i < |papers| && papers[i].id == id
  }

  predicate PapersValid(papers: seq<Paper>, nextId: int) {
    && (forall i :: 0 <= i < |papers| ==> PaperRowValid(papers[i], nextId))
    && (forall i, j :: 0 <= i < j < |papers| ==> papers[i].id != papers[j].id)
    // UNIQUE(grade, semester)
    && (forall i, j :: 0 <= i < j < |papers| ==>
          papers[i].grade != papers[j].grade || papers[i].semester != papers[j].semester)
  }

  predicate ResultsValid(results: seq<TestResult>, nextId: int, papers: seq<Paper>) {
    && (forall i :: 0 <= i < |results| ==> 1 <= results[i].id < nextId)
    && (forall i, j :: 0 <= i < j < |results| ==> results[i].id != results[j].id)
    // FOREIGN KEY (test_paper_id) REFERENCES test_papers(id)
    && (forall i :: 0 <= i < |results| ==> HasPaperId(papers, results[i].testPaperId))
  }

  predicate AdminsValid(admins: seq<Admin>, nextId: int) {
    && (forall i :: 0 <= i < |admins| ==> 1 <= admins[i].id < nextId)
    && (forall i, j :: 0 <= i < j < |admins| ==> admins[i].id != admins[j].id)
    // username TEXT UNIQUE
    && (forall i, j :: 0 <= i < j < |admins| ==> admins[i].username != admins[j].username)
  }

  predicate Valid(s: Store) {
    && 1 <= s.nextPaperId && 1 <= s.nextResultId && 1 <= s.nextAdminId
    && PapersValid(s.papers, s.nextPaperId)
    && ResultsValid(s.results, s.nextResultId, s.papers)
    && AdminsValid(s.admins, s.nextAdminId)
  }

  /**
   * What a valid store guarantees to every reader: each paper has a grade in
   * 1..6, a semester in {1, 2} and at least one question; no two papers share
   * a (grade, semester) key; every result names a stored paper; and no two
   * admins share a username.
   */
  lemma ValidMeansConstraints(s: Store)
    requires Valid(s)
    ensures forall i :: 0 <= i < |s.papers| ==>
      GradeInRange(s.papers[i].grade) && SemesterInRange(s.papers[i].semester) && |s.papers[i].questions| > 0
    ensures forall i, j :: 0 <= i < |s.papers| && 0 <= j < |s.papers| && i != j ==>
      s.papers[i].grade != s.papers[j].grade || s.papers[i].semester != s.papers[j].semester
    ensures forall i :: 0 <= i < |s.results| ==> HasPaperId(s.papers, s.results[i].testPaperId)
    ensures forall i, j :: 0 <= i < |s.admins| && 0 <= j < |s.admins| && i != j ==>
      s.admins[i].username != s.admins[j].username
  {
    forall i, j | 0 <= i < |s.papers| && 0 <= j < |s.papers| && i != j
      ensures s.papers[i].grade != s.papers[j].grade || s.papers[i].semester != s.papers[j].semester
    {
      if i > j {
        assert s.papers[j].grade != s.papers[i].grade || s.papers[j].semester != s.papers[i].semester;
      }
    }
    forall i, j | 0 <= i < |s.admins| && 0 <= j < |s.admins| && i != j
      ensures s.admins[i].username != s.admins[j].username
    {
      if i > j {
        assert s.admins[j].username != s.admins[i].username;
      }
    }
  }

  /** A freshly created database file: empty tables, every counter at 1. */
  function EmptyStore(): (s: Store)
    ensures Valid(s)
    ensures s.papers == [] && s.results == [] && s.admins == []
  {
    Store([], 1, [], 1, [], 1)
  }

  /** `SELECT … FROM test_papers WHERE grade = ? AND semester = ?`, as a row position (`|papers|` when absent). */
  function PaperIndex(papers: seq<Paper>, grade: int, semester: int): (k: nat)
    ensures k <= |papers|
    ensures k < |papers| ==> papers[k].grade == grade && papers[k].semester == semester
    ensures forall j :: 0 <= j < k ==> papers[j].grade != grade || papers[j].semester != semester
  {
    Seqs.FirstIndex(papers, (p: Paper) => p.grade == grade && p.semester == semester)
  }

  /** `SELECT … FROM test_papers WHERE id = ?`, as a row position (`|papers|` when absent). */
  function PaperIdIndex(papers: seq<Paper>, id: int): (k: nat)
    ensures k <= |papers|
    ensures k < |papers| <==> HasPaperId(papers, id)
    ensures k < |papers| ==> papers[k].id == id
  {
    Seqs.FirstIndex(papers, (p: Paper) => p.id == id)
  }

  predicate HasAdmin(admins: seq<Admin>, username: string) {
    exists i :: 0 <= i < |admins| && admins[i].username == username
  }

  /**
   * The seeding step of `initializeDatabase`:
   * `INSERT OR IGNORE INTO admins (username, password) VALUES (?, ?)`.
   * A row whose username is taken is silently skipped, so an existing
   * account keeps its old password.
   */
  function SeedAdmin(s: Store, username: string, password: string, now: int): (s': Store)
    requires Valid(s)
    ensures Valid(s')
    ensures HasAdmin(s'.admins, username)
    ensures s'.papers == s.papers && s'.results == s.results
    ensures HasAdmin(s.admins, username) ==> s' == s
    ensures !HasAdmin(s.admins, username) ==>
      |s'.admins| == |s.admins| + 1 && s'.admins[..|s.admins|] == s.admins
      && s'.admins[|s.admins|].password == password
  {
    if HasAdmin(s.admins, username) then s
    else
      var s' := s.(admins := s.admins + [Admin(s.nextAdminId, username, password, now)],
                   nextAdminId := s.nextAdminId + 1);
      assert s'.admins[|s.admins|].username == username;
      s'
  }

  /** Running the initialisation again leaves the admin table exactly as after the first run. */
  lemma SeedAdminIdempotent(s: Store, username: string, password: string, now1: int, now2: int)
    requires Valid(s)
    ensures SeedAdmin(SeedAdmin(s, username, password, now1), username, password, now2)
         == SeedAdmin(s, username, password, now1)
  {
  }

  /** A second seeding with a different password leaves the first account untouched. */
  lemma SeedAdminKeepsPassword(s: Store, username: string, p1: string, p2: string, now1: int, now2: int)
    requires Valid(s)
    requires !HasAdmin(s.admins, username)
    ensures var s1 := SeedAdmin(s, username, p1, now1);
      var s2 := SeedAdmin(s1, username, p2, now2);
      s2.admins == s1.admins && s2.admins[|s.admins|].password == p1
  {
  }
}

=== FILE: domain.dfy ===
/**
 * The records the server stores and the pages exchange. The questions and
 * answers columns hold JSON text; serialising and parsing them is taken to
 * be the identity, so they appear here as sequences.
 */
module Domain {
  import opened Wrappers

  /** One multiple-choice question; `answer` is the 1-based correct choice, 0 while unset. */
  datatype Question = Question(
    questionNumber: int,
    imageUrl: Option<string>,
    choices: seq<string>,
    answer: int)

  /** A question as a student receives it: the same fields minus the answer. */
  datatype StudentQuestion = StudentQuestion(
    questionNumber: int,
    imageUrl: Option<string>,
    choices: seq<string>)

  /** The choice a student made for the question carrying `questionNumber`. */
  datatype Answer = Answer(questionNumber: int, selectedAnswer: int)

  /** A row of `test_papers`. */
  datatype Paper = Paper(
    id: int,
    grade: int,
    semester: int,
    createdAt: int,
    questions: seq<Question>)

  /** A row of `test_results`; written once per submission and never changed. */
  datatype TestResult = TestResult(
    id: int,
    studentName: string,
    studentPhone: string,
    grade: int,
    semester: int,
    testPaperId: int,
    takenAt: int,
    answers: seq<Answer>,
    score: int,
    correctCount: int)

  /** A row of `admins`. */
  datatype Admin = Admin(id: int, username: string, password: string, createdAt: int)

  predicate DistinctQuestionNumbers(qs: seq<Question>) {
    forall i, j :: 0 <= i < j < |qs| ==> qs[i].questionNumber != qs[j].questionNumber
  }

  predicate DistinctAnswerNumbers(answers: seq<Answer>) {
    forall i, j :: 0 <= i < j < |answers| ==> answers[i].questionNumber != answers[j].questionNumber
  }

  /** Questions numbered 1, 2, …, n by position. */
  predicate ConsecutivelyNumbered(qs: seq<Question>) {
    forall k :: 0 <= k < |qs| ==> qs[k].questionNumber == k + 1
  }
}

=== FILE: findings.dfy ===
/**
 * Two places where the grading does not do what the rest of the system
 * evidently intends, each shown on a concrete input against the model of
 * the code as written, next to a corrected definition and its property.
 */
module Findings {
  import opened Wrappers
  import opened Domain
  import opened Grading
  import opened Database
  import Server
  import AdminResultDetail
  import StudentResult
  import StudentTest

  // ---------------- repeated question numbers in a submission ----------------

  const OneQuestion := Question(1, None, ["1", "2", "3", "4"], 2)

  const OnePaperStore := Store([Paper(1, 1, 1, 0, [OneQuestion])], 2, [], 1, [], 1)

  /** A submission that answers question 1 correctly, twice. */
  const RepeatedAnswer := Server.SubmitRequest(
    Some("kim"), Some("010-1234-5678"), Some(1), Some(1), Some(1),
    Some([Answer(1, 2), Answer(1, 2)]))

  /**
   * As written, the server counts every submitted answer, so one question
   * answered twice scores 200 out of 100 and the result page shows -1 wrong.
   */
  lemma RepeatedAnswerScoresTwoHundred()
    ensures Valid(OnePaperStore)
    ensures Server.SubmitTest(OnePaperStore, RepeatedAnswer, 0).1 == Success(Server.Graded(1, 200, 2, 1))
    ensures StudentResult.Render(Some(200), 2, 1).wrong == -1
  {
    OnePaperStoreValid();
    assert PaperIdIndex(OnePaperStore.papers, 1) == 0;
    assert CountCorrect([OneQuestion], [Answer(1, 2)]) == 1;
    assert CountCorrect([OneQuestion], [Answer(1, 2), Answer(1, 2)]) == 2;
    RoundPercentUnique(2, 1, 200);
  }

  lemma OnePaperStoreValid()
    ensures Valid(OnePaperStore)
  {
  }

  /** Corrected count: each question of the paper counts once, as the admin detail page marks it. */
  function CorrectedCount(qs: seq<Question>, answers: seq<Answer>): (c: nat)
    ensures c <= |qs|
    ensures DistinctQuestionNumbers(qs) && DistinctAnswerNumbers(answers) ==> c == CountCorrect(qs, answers)
  {
    var c := AdminResultDetail.MarkedCorrectCount(qs, answers);
    if DistinctQuestionNumbers(qs) && DistinctAnswerNumbers(answers) then
      AdminResultDetail.MarkedCountMatchesServer(qs, answers);
      c
    else c
  }

  /** Corrected score: a percentage for every submission. */
  function CorrectedScore(qs: seq<Question>, answers: seq<Answer>): (r: nat)
    requires |qs| > 0
    ensures r <= 100
    ensures DistinctQuestionNumbers(qs) && DistinctAnswerNumbers(answers) ==>
      r == RoundPercent(CountCorrect(qs, answers), |qs|)
    ensures CorrectedCount(qs, answers) == |qs| ==> r == 100
  {
    RoundPercent(CorrectedCount(qs, answers), |qs|)
  }

  /** The corrected score of the repeated submission is the 100 the student earned. */
  lemma RepeatedAnswerCorrected()
    ensures CorrectedScore([OneQuestion], [Answer(1, 2), Answer(1, 2)]) == 100
  {
    assert AdminResultDetail.IsMarkedCorrect(OneQuestion, [Answer(1, 2), Answer(1, 2)]);
  }

  // ---------------- positional numbering of the payload ----------------

  /** A saved paper whose first and third slots were filled: numbers 1 and 3. */
  const GappedPaper := [Question(1, None, ["1", "2", "3", "4"], 1), Question(3, None, ["1", "2", "3", "4"], 2)]

  /**
   * As written, the test page numbers its answers 1, 2, … by position, so on
   * a paper saved with a gap a student who picks every correct choice scores 50.
   */
  lemma GappedPaperHalvesFullMarks()
    ensures !ConsecutivelyNumbered(GappedPaper)
    ensures StudentTest.Payload([1, 2]) == [Answer(1, 1), Answer(2, 2)]
    ensures CountCorrect(GappedPaper, StudentTest.Payload([1, 2])) == 1
    ensures RoundPercent(CountCorrect(GappedPaper, StudentTest.Payload([1, 2])), 2) == 50
  {
    assert StudentTest.Payload([1, 2]) == [Answer(1, 1), Answer(2, 2)];
    assert QuestionIndex(GappedPaper, 2) == 2;
    assert CountCorrect(GappedPaper, [Answer(2, 2)]) == 0;
    assert CountCorrect(GappedPaper, [Answer(1, 1), Answer(2, 2)]) == 1;
  }

  /**
   * Corrected: answers labelled with the shown question's own number. Every
   * correct pick then earns full marks on any paper without repeated numbers.
   */
  lemma CorrectedPayloadFullMarks(qs: seq<Question>, answers: seq<int>)
    requires DistinctQuestionNumbers(qs) && |qs| > 0 && |answers| == |qs|
    requires forall i :: 0 <= i < |qs| ==> answers[i] == qs[i].answer
    ensures RoundPercent(CountCorrect(qs, StudentTest.PayloadByNumber(Server.StudentView(qs), answers)), |qs|) == 100
  {
    StudentTest.PayloadByNumberGradesPositionally(qs, answers);
    StudentTest.PositionalCorrectAll(qs, answers);
  }
}

=== FILE: grading.dfy ===
/**
 * How the submission handler scores a test: every submitted answer is
 * looked up by question number and earns a point when its choice equals the
 * stored answer; the score is the rounded percentage over the paper's
 * question count.
 */
module Grading {
  import opened Wrappers
  import opened Domain
  import Seqs

  /** `questions.find(q => q.question_number === n)`, as the position of the first match (`|qs|` when none). */
  function QuestionIndex(qs: seq<Question>, n: int): (k: nat)
    ensures k <= |qs|
    ensures k < |qs| ==> qs[k].questionNumber == n
    ensures forall j :: 0 <= j < k ==> qs[j].questionNumber != n
  {
    Seqs.FirstIndex(qs, (q: Question) => q.questionNumber == n)
  }

  /** The answer earns a point: a question with its number exists and the first such question's answer is the chosen one. */
  predicate Earns(qs: seq<Question>, a: Answer) {
    var k := QuestionIndex(qs, a.questionNumber);
    k < |qs| && qs[k].answer == a.selectedAnswer
  }

  /** `correct_count` as the `answers.forEach` loop accumulates it. */
  function CountCorrect(qs: seq<Question>, answers: seq<Answer>): (c: nat)
    ensures c <= |answers|
    ensures c == 0 <==> forall i :: 0 <= i < |answers| ==> !Earns(qs, answers[i])
    ensures c == |answers| <==> forall i :: 0 <= i < |answers| ==> Earns(qs, answers[i])
  {
    if |answers| == 0 then 0
    else (if Earns(qs, answers[0]) then 1 else 0) + CountCorrect(qs, answers[1..])
  }

  /** Counting is additive over a split of the submitted answers. */
  lemma {:induction false} CountCorrectAppend(qs: seq<Question>, a: seq<Answer>, b: seq<Answer>)
    ensures CountCorrect(qs, a + b) == CountCorrect(qs, a) + CountCorrect(qs, b)
  {
    if |a| == 0 {
      assert a + b == b;
    } else {
      assert (a + b)[0] == a[0];
      assert (a + b)[1..] == a[1..] + b;
      CountCorrectAppend(qs, a[1..], b);
    }
  }

  /** An answer whose number matches no question is ignored, wherever it stands among the others. */
  lemma {:induction false} UnmatchedAnswerIgnored(qs: seq<Question>, before: seq<Answer>, a: Answer, after: seq<Answer>)
    requires forall i :: 0 <= i < |qs| ==> qs[i].questionNumber != a.questionNumber
    ensures CountCorrect(qs, before + [a] + after) == CountCorrect(qs, before + after)
  {
    var x := CountCorrect(qs, before);
    assert QuestionIndex(qs, a.questionNumber) == |qs|;
    assert CountCorrect(qs, [a]) == 0;
    CountCorrectAppend(qs, before, [a]);
    assert CountCorrect(qs, before + [a]) == x;
    CountCorrectAppend(qs, before + [a], after);
    CountCorrectAppend(qs, before, after);
  }

  /** Multiplying by a positive factor preserves a strict order (and so cancels from one). */
  lemma MulCancelLt(d: int, x: int, y: int)
    requires d > 0
    ensures d * x < d * y <==> x < y
  {
    if x < y {
      assert d * y - d * x == d * (y - x);
    } else {
      assert d * x - d * y == d * (x - y);
    }
  }

  /**
   * `Math.round(c / t * 100)` for a count `c` and a positive total `t`: the
   * integer nearest to 100·c/t, halves rounded up.
   */
  function RoundPercent(c: nat, t: nat): (r: nat)
    requires t > 0
    ensures -(t as int) <= 200 * c - 2 * t * r < t
    ensures c <= t ==> r <= 100
    ensures c == t ==> r == 100
    ensures c == 0 ==> r == 0
  {
    RoundingFacts(c, t);
    (200 * c + t) / (2 * t)
  }

  lemma RoundingFacts(c: nat, t: nat)
    requires t > 0
    ensures var r := (200 * c + t) / (2 * t);
      && -(t as int) <= 200 * c - 2 * t * r < t
      && (c <= t ==> r <= 100)
      && (c == t ==> r == 100)
      && (c == 0 ==> r == 0)
  {
    var n := 200 * c + t;
    var d := 2 * t;
    var r := n / d;
    var m := n % d;
    assert n == d * r + m && 0 <= m < d;
    assert 2 * t * r == d * r;
    if c <= t {
      assert d * r < d * 101;
      MulCancelLt(d, r, 101);
    }
    if c == t {
      assert d * 99 < d * r;
      MulCancelLt(d, 99, r);
    }
    if c == 0 {
      assert d * r < d * 1;
      MulCancelLt(d, r, 1);
    }
  }

  /** The rounded percentage is the only integer within half a point of 100·c/t (halves going up). */
  lemma {:induction false} RoundPercentUnique(c: nat, t: nat, r: int)
    requires t > 0
    requires -(t as int) <= 200 * c - 2 * t * r < t
    ensures r == RoundPercent(c, t)
  {
    var r0 := RoundPercent(c, t);
    var d := 2 * t;
    assert 2 * t * r == d * r && 2 * t * r0 == d * r0;
    // both d·r and d·r0 lie in (200c - t, 200c + t], an interval shorter than d
    MulCancelLt(d, r, r0 + 1);
    MulCancelLt(d, r0, r + 1);
    assert d * (r0 + 1) == d * r0 + d && d * (r + 1) == d * r + d;
  }

  /** More correct answers never lower the rounded percentage. */
  lemma {:induction false} RoundPercentMonotone(c1: nat, c2: nat, t: nat)
    requires t > 0 && c1 <= c2
    ensures RoundPercent(c1, t) <= RoundPercent(c2, t)
  {
    var r1, r2 := RoundPercent(c1, t), RoundPercent(c2, t);
    var d := 2 * t;
    assert 2 * t * r1 == d * r1 && 2 * t * r2 == d * r2;
    MulCancelLt(d, r2, r1);
    assert d * (r2 + 1) == d * r2 + d;
    MulCancelLt(d, r1, r2 + 1);
  }

  /**
   * The percentage both result pages recompute from a correct count and a
   * total with the server's rounding. None stands for the non-finite value a
   * zero total gives: NaN at 0/0, Infinity when some answer is correct.
   */
  function ShownPercent(correct: nat, total: nat): (p: Option<int>)
    ensures p.None? <==> total == 0
    ensures total > 0 ==> p == Some(RoundPercent(correct, total))
    ensures p.Some? && correct <= total ==> 0 <= p.value <= 100
  {
    if total == 0 then None else Some(RoundPercent(correct, total))
  }

  // ---- counting matching (question, answer) pairs from either side ----

  predicate PairMatches(q: Question, a: Answer) {
    q.questionNumber == a.questionNumber && q.answer == a.selectedAnswer
  }

  /** How many questions the single answer `a` matches. */
  function AnswerHits(a: Answer, qs: seq<Question>): nat {
    if |qs| == 0 then 0
    else (if PairMatches(qs[0], a) then 1 else 0) + AnswerHits(a, qs[1..])
  }

  /** How many answers match the single question `q`. */
  function QuestionHits(q: Question, answers: seq<Answer>): nat {
    if |answers| == 0 then 0
    else (if PairMatches(q, answers[0]) then 1 else 0) + QuestionHits(q, answers[1..])
  }

  function SumAnswerHits(answers: seq<Answer>, qs: seq<Question>): nat {
    if |answers| == 0 then 0
    else AnswerHits(answers[0], qs) + SumAnswerHits(answers[1..], qs)
  }

  function SumQuestionHits(qs: seq<Question>, answers: seq<Answer>): nat {
    if |qs| == 0 then 0
    else QuestionHits(qs[0], answers) + SumQuestionHits(qs[1..], answers)
  }

  lemma {:induction false} SumQuestionHitsNoAnswers(qs: seq<Question>)
    ensures SumQuestionHits(qs, []) == 0
  {
    if |qs| > 0 {
      SumQuestionHitsNoAnswers(qs[1..]);
    }
  }

  lemma {:induction false} SumQuestionHitsCons(qs: seq<Question>, a: Answer, rest: seq<Answer>)
    ensures SumQuestionHits(qs, [a] + rest) == AnswerHits(a, qs) + SumQuestionHits(qs, rest)
  {
    if |qs| > 0 {
      assert ([a] + rest)[0] == a;
      assert ([a] + rest)[1..] == rest;
      SumQuestionHitsCons(qs[1..], a, rest);
    }
  }

  /** Counting matching pairs answer by answer or question by question gives the same total. */
  lemma {:induction false} SumHitsSwap(answers: seq<Answer>, qs: seq<Question>)
    ensures SumAnswerHits(answers, qs) == SumQuestionHits(qs, answers)
  {
    if |answers| == 0 {
      SumQuestionHitsNoAnswers(qs);
    } else {
      SumHitsSwap(answers[1..], qs);
      SumQuestionHitsCons(qs, answers[0], answers[1..]);
      assert [answers[0]] + answers[1..] == answers;
    }
  }

  lemma {:induction false} EarnsHasHit(qs: seq<Question>, a: Answer)
    ensures (if Earns(qs, a) then 1 else 0) <= AnswerHits(a, qs)
    ensures DistinctQuestionNumbers(qs) ==> AnswerHits(a, qs) == (if Earns(qs, a) then 1 else 0)
  {
    if |qs| > 0 {
      EarnsHasHit(qs[1..], a);
      if qs[0].questionNumber == a.questionNumber {
        if DistinctQuestionNumbers(qs) {
          NoSuchNumberNoHits(qs[1..], a);
        }
      } else {
        assert Earns(qs, a) == Earns(qs[1..], a);
        assert DistinctQuestionNumbers(qs) ==> DistinctQuestionNumbers(qs[1..]);
      }
    }
  }

  lemma {:induction false} NoSuchNumberNoHits(qs: seq<Question>, a: Answer)
    requires forall i :: 0 <= i < |qs| ==> qs[i].questionNumber != a.questionNumber
    ensures AnswerHits(a, qs) == 0
  {
    if |qs| > 0 {
      NoSuchNumberNoHits(qs[1..], a);
    }
  }

  lemma {:induction false} CountCorrectAtMostHits(qs: seq<Question>, answers: seq<Answer>)
    ensures CountCorrect(qs, answers) <= SumAnswerHits(answers, qs)
    ensures DistinctQuestionNumbers(qs) ==> CountCorrect(qs, answers) == SumAnswerHits(answers, qs)
  {
    if |answers| > 0 {
      EarnsHasHit(qs, answers[0]);
      CountCorrectAtMostHits(qs, answers[1..]);
    }
  }

  lemma {:induction false} QuestionHitsAtMostOne(q: Question, answers: seq<Answer>)
    requires DistinctAnswerNumbers(answers)
    ensures QuestionHits(q, answers) <= 1
  {
    if |answers| > 0 {
      assert DistinctAnswerNumbers(answers[1..]);
      QuestionHitsAtMostOne(q, answers[1..]);
      if PairMatches(q, answers[0]) {
        NoSuchNumberNoQuestionHits(q, answers[1..]);
      }
    }
  }

  lemma {:induction false} NoSuchNumberNoQuestionHits(q: Question, answers: seq<Answer>)
    requires forall i :: 0 <= i < |answers| ==> answers[i].questionNumber != q.questionNumber
    ensures QuestionHits(q, answers) == 0
  {
    if |answers| > 0 {
      NoSuchNumberNoQuestionHits(q, answers[1..]);
    }
  }

  lemma {:induction false} SumQuestionHitsBounded(qs: seq<Question>, answers: seq<Answer>)
    requires DistinctAnswerNumbers(answers)
    ensures SumQuestionHits(qs, answers) <= |qs|
  {
    if |qs| > 0 {
      QuestionHitsAtMostOne(qs[0], answers);
      SumQuestionHitsBounded(qs[1..], answers);
    }
  }

  /**
   * When no question number is submitted twice, at most every question is
   * counted once, so the score stays within 0..100.
   */
  lemma {:induction false} DistinctAnswersScoreAtMostHundred(qs: seq<Question>, answers: seq<Answer>)
    requires DistinctAnswerNumbers(answers)
    requires |qs| > 0
    ensures CountCorrect(qs, answers) <= |qs|
    ensures RoundPercent(CountCorrect(qs, answers), |qs|) <= 100
  {
    CountCorrectAtMostHits(qs, answers);
    SumHitsSwap(answers, qs);
    SumQuestionHitsBounded(qs, answers);
  }
}

=== FILE: seqs.dfy ===
/** Searching a sequence, shared by every lookup of the model. */
module Seqs {
  /**
   * The position of the first element satisfying `p`, or `|s|` when none
   * does: JavaScript's `find` and a single-row `SELECT … WHERE` alike.
   */
  function FirstIndex<T>(s: seq<T>, p: T -> bool): (k: nat)
    ensures k <= |s|
    ensures k < |s| ==> p(s[k])
    ensures forall j :: 0 <= j < k ==> !p(s[j])
  {
    if |s| == 0 then 0
    else if p(s[0]) then 0
    else 1 + FirstIndex(s[1..], p)
  }
}

=== FILE: server.dfy ===
/**
 * The request handlers of the Express server that carry decision logic:
 * saving a paper, serving it to a student without answers, grading a
 * submission, and listing stored results. Each handler maps a store and a
 * request to the new store and the response; `now` stands for SQLite's
 * CURRENT_TIMESTAMP.
 */
module Server {
  import opened Wrappers
  import opened Text
  import opened Domain
  import opened Grading
  import Seqs
  import opened Database

  /** 400, 404 and 500 responses. */
  datatype HttpError = BadRequest | NotFound | ServerError

  /** JavaScript truthiness of a numeric JSON field: absent, null, NaN and 0 are falsy. */
  predicate NumberGiven(x: Option<int>) {
    x.Some? && x.value != 0
  }

  /** JavaScript truthiness of a string JSON field: absent, null and "" are falsy. */
  predicate TextGiven(x: Option<string>) {
    x.Some? && x.value != ""
  }

  // ---------------- POST /api/admin/test-papers ----------------

  datatype PaperRequest = PaperRequest(grade: Option<int>, semester: Option<int>, questions: Option<seq<Question>>)

  /** The response body of a successful save: the row id and whether a new row was inserted. */
  datatype Saved = Saved(id: int, created: bool)

  predicate PaperRequestComplete(req: PaperRequest) {
    NumberGiven(req.grade) && NumberGiven(req.semester) && req.questions.Some? && |req.questions.value| > 0
  }

  /**
   * Upsert by (grade, semester). An existing row keeps its id and gets the new
   * questions; otherwise a row is inserted, which the CHECK constraints reject
   * (a 500) when grade or semester is out of range.
   */
  function SavePaper(s: Store, req: PaperRequest, now: int): (out: (Store, Result<Saved, HttpError>))
    requires Valid(s)
    ensures Valid(out.0)
    ensures out.1.Failure? ==> out.0 == s
    ensures out.1 == Failure(BadRequest) <==> !PaperRequestComplete(req)
    ensures out.1.Success? <==>
      PaperRequestComplete(req) && GradeInRange(req.grade.value) && SemesterInRange(req.semester.value)
    ensures out.0.results == s.results && out.0.admins == s.admins
  {
    if !PaperRequestComplete(req) then (s, Failure(BadRequest))
    else
      var g, sem, qs := req.grade.value, req.semester.value, req.questions.value;
      var k := PaperIndex(s.papers, g, sem);
      if k < |s.papers| then
        var p := s.papers[k].(questions := qs, createdAt := now);
        var s' := s.(papers := s.papers[k := p]);
        assert ResultsValid(s'.results, s'.nextResultId, s'.papers) by {
          forall i | 0 <= i < |s.results|
            ensures HasPaperId(s'.papers, s.results[i].testPaperId)
          {
            var j :| 0 <= j < |s.papers| && s.papers[j].id == s.results[i].testPaperId;
            assert s'.papers[j].id == s.results[i].testPaperId;
          }
        }
        (s', Success(Saved(p.id, false)))
      else if !(GradeInRange(g) && SemesterInRange(sem)) then
        (s, Failure(ServerError))
      else
        var p := Paper(s.nextPaperId, g, sem, now, qs);
        var s' := s.(papers := s.papers + [p], nextPaperId := s.nextPaperId + 1);
        assert ResultsValid(s'.results, s'.nextResultId, s'.papers) by {
          forall i | 0 <= i < |s.results|
            ensures HasPaperId(s'.papers, s.results[i].testPaperId)
          {
            var j :| 0 <= j < |s.papers| && s.papers[j].id == s.results[i].testPaperId;
            assert s'.papers[j].id == s.results[i].testPaperId;
          }
        }
        (s', Success(Saved(p.id, true)))
  }

  /**
   * After a successful save exactly one row has the request's (grade,
   * semester) and it holds the request's questions. An existing row keeps its
   * id and position; otherwise one row is appended under the next id. Every
   * row for another pair is unchanged.
   */
  lemma SavePaperUpserts(s: Store, req: PaperRequest, now: int)
    requires Valid(s)
    requires SavePaper(s, req, now).1.Success?
    ensures var (s', r) := SavePaper(s, req, now);
      var g, sem := req.grade.value, req.semester.value;
      var k := PaperIndex(s'.papers, g, sem);
      && k < |s'.papers|
      && s'.papers[k].questions == req.questions.value
      && s'.papers[k].id == r.value.id
      && (forall j :: 0 <= j < |s'.papers| && j != k ==> s'.papers[j].grade != g || s'.papers[j].semester != sem)
      && (r.value.created <==> PaperIndex(s.papers, g, sem) == |s.papers|)
      && (r.value.created ==> |s'.papers| == |s.papers| + 1 && r.value.id == s.nextPaperId)
      && (!r.value.created ==> |s'.papers| == |s.papers| && k == PaperIndex(s.papers, g, sem)
                                && r.value.id == s.papers[k].id)
      && (forall j :: 0 <= j < |s.papers| && (s.papers[j].grade != g || s.papers[j].semester != sem)
                      ==> s'.papers[j] == s.papers[j])
  {
    var (s', r) := SavePaper(s, req, now);
    var g, sem := req.grade.value, req.semester.value;
    var k0 := PaperIndex(s.papers, g, sem);
    var k := PaperIndex(s'.papers, g, sem);
    if k0 < |s.papers| {
      assert s'.papers[k0].grade == g && s'.papers[k0].semester == sem;
      assert k == k0;
    } else {
      assert s'.papers[|s.papers|].grade == g && s'.papers[|s.papers|].semester == sem;
      assert k == |s.papers|;
    }
  }

  // ---------------- GET /api/test-papers/:grade/:semester ----------------

  /** The body a student receives: the paper's identity and its questions without answers. */
  datatype StudentPaper = StudentPaper(id: int, grade: int, semester: int, questions: seq<StudentQuestion>)

  function HideAnswer(q: Question): StudentQuestion {
    StudentQuestion(q.questionNumber, q.imageUrl, q.choices)
  }

  /** `questions.map(q => ({question_number, image_url, choices}))`. */
  function StudentView(qs: seq<Question>): (v: seq<StudentQuestion>)
    ensures |v| == |qs|
    ensures forall i :: 0 <= i < |qs| ==>
      v[i].questionNumber == qs[i].questionNumber && v[i].imageUrl == qs[i].imageUrl && v[i].choices == qs[i].choices
  {
    seq(|qs|, i requires 0 <= i < |qs| => HideAnswer(qs[i]))
  }

  /** Two papers that differ only in their correct answers look identical to a student. */
  lemma StudentViewHidesAnswers(qs1: seq<Question>, qs2: seq<Question>)
    requires |qs1| == |qs2|
    requires forall i :: 0 <= i < |qs1| ==>
      qs1[i].questionNumber == qs2[i].questionNumber && qs1[i].imageUrl == qs2[i].imageUrl
      && qs1[i].choices == qs2[i].choices
    ensures StudentView(qs1) == StudentView(qs2)
  {
  }

  function FetchStudentPaper(s: Store, grade: int, semester: int): (r: Result<StudentPaper, HttpError>)
    ensures r.Failure? <==> forall j :: 0 <= j < |s.papers| ==> s.papers[j].grade != grade || s.papers[j].semester != semester
    ensures r.Failure? ==> r.error == NotFound
    ensures r.Success? ==>
      (exists j :: 0 <= j < |s.papers| && s.papers[j].grade == grade && s.papers[j].semester == semester
        && r.value == StudentPaper(s.papers[j].id, grade, semester, StudentView(s.papers[j].questions)))
  {
    var k := PaperIndex(s.papers, grade, semester);
    if k < |s.papers| then
      var p := s.papers[k];
      Success(StudentPaper(p.id, p.grade, p.semester, StudentView(p.questions)))
    else Failure(NotFound)
  }

  // ---------------- POST /api/submit-test ----------------

  datatype SubmitRequest = SubmitRequest(
    studentName: Option<string>,
    studentPhone: Option<string>,
    grade: Option<int>,
    semester: Option<int>,
    testPaperId: Option<int>,
    answers: Option<seq<Answer>>)

  /** The response body of a graded submission. */
  datatype Graded = Graded(id: int, score: int, correctCount: int, total: int)

  /** Every field the handler tests with `!x` is present; an empty answer array is truthy and passes. */
  predicate SubmitRequestComplete(req: SubmitRequest) {
    && TextGiven(req.studentName) && TextGiven(req.studentPhone)
    && NumberGiven(req.grade) && NumberGiven(req.semester)
    && NumberGiven(req.testPaperId) && req.answers.Some?
  }

  /**
   * Validate, load the paper by id, grade every answer, insert one result row
   * and report score, correct count and the paper's question count.
   */
  function SubmitTest(s: Store, req: SubmitRequest, now: int): (out: (Store, Result<Graded, HttpError>))
    requires Valid(s)
    ensures Valid(out.0)
    ensures out.1.Failure? ==> out.0 == s
    ensures out.1 == Failure(BadRequest) <==> !SubmitRequestComplete(req)
    ensures out.1 == Failure(NotFound) <==>
      SubmitRequestComplete(req) && !HasPaperId(s.papers, req.testPaperId.value)
    ensures out.1.Success? <==> SubmitRequestComplete(req) && HasPaperId(s.papers, req.testPaperId.value)
    ensures out.1.Success? ==>
      var qs := s.papers[PaperIdIndex(s.papers, req.testPaperId.value)].questions;
      var g := out.1.value;
      && out.0.papers == s.papers && out.0.admins == s.admins
      && |out.0.results| == |s.results| + 1 && out.0.results[..|s.results|] == s.results
      && g.total == |qs| > 0
      && g.correctCount == CountCorrect(qs, req.answers.value) <= |req.answers.value|
      && g.score == RoundPercent(g.correctCount, g.total)
      && out.0.results[|s.results|] == TestResult(
           g.id, req.studentName.value, req.studentPhone.value, req.grade.value, req.semester.value,
           req.testPaperId.value, now, req.answers.value, g.score, g.correctCount)
  {
    if !SubmitRequestComplete(req) then (s, Failure(BadRequest))
    else
      var k := PaperIdIndex(s.papers, req.testPaperId.value);
      if k == |s.papers| then (s, Failure(NotFound))
      else
        var qs := s.papers[k].questions;
        var total := |qs|;
        var correct := CountCorrect(qs, req.answers.value);
        var score := RoundPercent(correct, total);
        var row := TestResult(s.nextResultId, req.studentName.value, req.studentPhone.value,
                              req.grade.value, req.semester.value, req.testPaperId.value,
                              now, req.answers.value, score, correct);
        var s' := s.(results := s.results + [row], nextResultId := s.nextResultId + 1);
        assert s'.results[|s.results|] == row;
        (s', Success(Graded(row.id, score, correct, total)))
  }

  /**
   * With no question number submitted twice the stored score is a
   * percentage: at most 100.
   */
  lemma {:induction false} SubmitScoreAtMostHundred(s: Store, req: SubmitRequest, now: int)
    requires Valid(s)
    requires SubmitRequestComplete(req) && HasPaperId(s.papers, req.testPaperId.value)
    requires DistinctAnswerNumbers(req.answers.value)
    ensures var g := SubmitTest(s, req, now).1.value;
      0 <= g.correctCount <= g.total && 0 <= g.score <= 100
  {
    var qs := s.papers[PaperIdIndex(s.papers, req.testPaperId.value)].questions;
    DistinctAnswersScoreAtMostHundred(qs, req.answers.value);
  }

  // ---------------- GET /api/admin/results/:id ----------------

  /** A stored result joined with the current questions of its paper. */
  datatype ResultDetail = ResultDetail(result: TestResult, questions: seq<Question>)

  function ResultIndex(results: seq<TestResult>, id: int): (k: nat)
    ensures k <= |results|
    ensures k < |results| ==> results[k].id == id
    ensures forall j :: 0 <= j < k ==> results[j].id != id
  {
    Seqs.FirstIndex(results, (r: TestResult) => r.id == id)
  }

  /** `SELECT tr.*, tp.questions FROM test_results tr JOIN test_papers tp ON tr.test_paper_id = tp.id WHERE tr.id = ?`. */
  function FetchResultDetail(s: Store, id: int): (r: Result<ResultDetail, HttpError>)
    requires Valid(s)
    ensures r.Success? <==> exists j :: 0 <= j < |s.results| && s.results[j].id == id
    ensures r.Failure? ==> r.error == NotFound
    ensures r.Success? ==>
      && r.value.result in s.results && r.value.result.id == id
      && r.value.questions == s.papers[PaperIdIndex(s.papers, r.value.result.testPaperId)].questions
  {
    var k := ResultIndex(s.results, id);
    if k == |s.results| then Failure(NotFound)
    else
      var row := s.results[k];
      var p := PaperIdIndex(s.papers, row.testPaperId);
      if p == |s.papers| then Failure(NotFound)  // excluded by the foreign key
      else Success(ResultDetail(row, s.papers[p].questions))
  }

  // ---------------- GET /api/admin/results ----------------

  /** The query string; an empty `search`, `grade` or `semester` is written as None. */
  datatype ResultFilter = ResultFilter(search: Option<string>, grade: Option<int>, semester: Option<int>)

  /** The WHERE clause the handler assembles from the filters present. */
  predicate Passes(f: ResultFilter, r: TestResult) {
    && (f.search.None? || f.search.value == ""
        || LikeContains(r.studentName, f.search.value) || LikeContains(r.studentPhone, f.search.value))
    && (f.grade.None? || f.grade.value == r.grade)
    && (f.semester.None? || f.semester.value == r.semester)
  }

  function Where(f: ResultFilter, rows: seq<TestResult>): (out: seq<TestResult>)
    ensures |out| <= |rows|
    ensures forall i :: 0 <= i < |out| ==> Passes(f, out[i])
    ensures forall r :: r in out <==> r in rows && Passes(f, r)
    ensures multiset(out) <= multiset(rows)
  {
    if |rows| == 0 then []
    else
      var rest := Where(f, rows[1..]);
      assert rows == [rows[0]] + rows[1..];
      if Passes(f, rows[0]) then [rows[0]] + rest else rest
  }

  predicate NewestFirst(rows: seq<TestResult>) {
    forall i, j :: 0 <= i < j < |rows| ==> rows[i].takenAt >= rows[j].takenAt
  }

  function InsertByTime(r: TestResult, sorted: seq<TestResult>): (out: seq<TestResult>)
    requires NewestFirst(sorted)
    ensures NewestFirst(out)
    ensures multiset(out) == multiset(sorted) + multiset{r}
    ensures forall i :: 0 <= i < |out| ==> out[i] == r || out[i] in sorted
  {
    if |sorted| == 0 then [r]
    else if r.takenAt >= sorted[0].takenAt then [r] + sorted
    else
      var rest := InsertByTime(r, sorted[1..]);
      assert sorted == [sorted[0]] + sorted[1..];
      assert forall i :: 0 <= i < |rest| ==> rest[i].takenAt <= sorted[0].takenAt;
      [sorted[0]] + rest
  }

  /** `ORDER BY taken_at DESC`; rows with equal timestamps keep their table order. */
  function OrderByNewest(rows: seq<TestResult>): (out: seq<TestResult>)
    ensures NewestFirst(out)
    ensures multiset(out) == multiset(rows)
  {
    if |rows| == 0 then []
    else
      assert rows == [rows[0]] + rows[1..];
      InsertByTime(rows[0], OrderByNewest(rows[1..]))
  }

  /**
   * The result list: exactly the stored rows that pass every filter given,
   * each as often as it is stored, most recent first.
   */
  function ListResults(s: Store, f: ResultFilter): (out: seq<TestResult>)
    ensures forall r :: r in out <==> r in s.results && Passes(f, r)
    ensures multiset(out) <= multiset(s.results)
    ensures forall r :: r in s.results && Passes(f, r) ==> multiset(out)[r] == multiset(s.results)[r]
    ensures NewestFirst(out)
  {
    var kept := Where(f, s.results);
    WhereKeepsMultiplicity(f, s.results);
    OrderByNewest(kept)
  }

  lemma {:induction false} WhereKeepsMultiplicity(f: ResultFilter, rows: seq<TestResult>)
    ensures forall r :: Passes(f, r) ==> multiset(Where(f, rows))[r] == multiset(rows)[r]
  {
    if |rows| > 0 {
      WhereKeepsMultiplicity(f, rows[1..]);
      assert rows == [rows[0]] + rows[1..];
    }
  }
}

=== FILE: student_info.dfy ===
/**
 * The student details form: the phone formatter applied on every keystroke
 * and the validation run before the paper is requested.
 */
module StudentInfo {
  import opened Text

  /** Formats a string of digits: `ddd`, `ddd-d…d` (up to 4), `ddd-dddd-d…d` (up to 4), extra digits dropped. */
  function FormatDigits(d: string): string {
    if |d| <= 3 then d
    else if |d| <= 7 then d[..3] + "-" + d[3..]
    else d[..3] + "-" + d[3..7] + "-" + d[7..if |d| < 11 then |d| else 11]
  }

  /** The first eleven digits of `s`, which is all the formatter keeps. */
  function KeptDigits(s: string): string {
    var d := Digits(s);
    if |d| <= 11 then d else d[..11]
  }

  predicate HyphensAt(r: string, positions: set<int>) {
    forall i :: 0 <= i < |r| ==> (r[i] == '-' <==> i in positions)
  }

  /**
   * `formatPhone`: keep the digits, then insert hyphens after the third and
   * the seventh digit as far as there are digits.
   */
  function FormatPhone(value: string): (r: string)
    ensures forall i :: 0 <= i < |r| ==> IsDigit(r[i]) || r[i] == '-'
    ensures Digits(r) == KeptDigits(value)
    ensures |r| <= 13
    ensures |Digits(value)| <= 3 ==> HyphensAt(r, {})
    ensures 4 <= |Digits(value)| <= 7 ==> HyphensAt(r, {3})
    ensures 8 <= |Digits(value)| ==> HyphensAt(r, {3, 8})
  {
    var d := Digits(value);
    if |d| <= 3 then
      d
    else if |d| <= 7 then
      FormatMiddle(d);
      FormatDigits(d)
    else
      FormatLong(d);
      FormatDigits(d)
  }

  lemma DigitsOfHyphen()
    ensures Digits("-") == ""
  {
  }

  /** A hyphen followed by digits adds just those digits to what the formatter's input keeps. */
  lemma {:induction false} DigitsHyphenJoin(x: string, c: string)
    requires AllDigits(c)
    ensures Digits(x + "-" + c) == Digits(x) + c
  {
    DigitsAppend(x, "-");
    DigitsOfHyphen();
    DigitsAppend(x + "-", c);
    assert Digits(c) == c;
  }

  /** Four to seven digits: one hyphen, after the third digit. */
  lemma FormatMiddle(d: string)
    requires AllDigits(d) && 4 <= |d| <= 7
    ensures var r := FormatDigits(d);
      && (forall i :: 0 <= i < |r| ==> IsDigit(r[i]) || r[i] == '-')
      && Digits(r) == d && |r| == |d| + 1 && HyphensAt(r, {3})
  {
    var a, b := d[..3], d[3..];
    var r := a + "-" + b;
    assert r == FormatDigits(d);
    assert AllDigits(a) && AllDigits(b);
    DigitsHyphenJoin(a, b);
    assert Digits(a) == a;
    assert a + b == d;
    forall i | 0 <= i < |r|
      ensures (IsDigit(r[i]) || r[i] == '-') && (r[i] == '-' <==> i in {3})
    {
      if i < 3 {
        assert r[i] == a[i];
      } else if i > 3 {
        assert r[i] == b[i - 4];
      }
    }
  }

  /** Eight or more digits: hyphens after the third and seventh digit, at most four digits after the second. */
  lemma FormatLong(d: string)
    requires AllDigits(d) && 8 <= |d|
    ensures var r := FormatDigits(d);
      && (forall i :: 0 <= i < |r| ==> IsDigit(r[i]) || r[i] == '-')
      && Digits(r) == (if |d| <= 11 then d else d[..11]) && |r| <= 13 && HyphensAt(r, {3, 8})
  {
    var e := if |d| < 11 then |d| else 11;
    FormatLongDigits(d, e);
    FormatLongHyphens(d, e);
  }

  lemma FormatLongDigits(d: string, e: int)
    requires AllDigits(d) && 8 <= |d| && e == (if |d| < 11 then |d| else 11)
    ensures Digits(FormatDigits(d)) == d[..e]
  {
    var a, b, c := d[..3], d[3..7], d[7..e];
    assert AllDigits(a) && AllDigits(b) && AllDigits(c);
    var x2 := a + "-" + b;
    DigitsHyphenJoin(a, b);
    assert Digits(a) == a;
    assert Digits(x2) == a + b;
    DigitsHyphenJoin(x2, c);
    assert Digits(x2 + "-" + c) == a + b + c;
    assert FormatDigits(d) == x2 + "-" + c;
    assert a + b + c == d[..e];
  }

  lemma FormatLongHyphens(d: string, e: int)
    requires AllDigits(d) && 8 <= |d| && e == (if |d| < 11 then |d| else 11)
    ensures var r := FormatDigits(d);
      && (forall i :: 0 <= i < |r| ==> IsDigit(r[i]) || r[i] == '-')
      && |r| <= 13 && HyphensAt(r, {3, 8})
  {
    var r := FormatDigits(d);
    assert |r| == e + 2;
    forall i | 0 <= i < |r|
      ensures (IsDigit(r[i]) || r[i] == '-') && (r[i] == '-' <==> i in {3, 8})
    {
      if i < 3 {
        assert r[i] == d[i];
      } else if 3 < i < 8 {
        assert r[i] == d[i - 1];
      } else if i > 8 {
        assert r[i] == d[i - 2];
      }
    }
  }

  /** Formatting an already formatted number changes nothing. */
  lemma FormatPhoneIdempotent(x: string)
    ensures FormatPhone(FormatPhone(x)) == FormatPhone(x)
  {
    var d := Digits(x);
    var k := KeptDigits(x);
    assert Digits(FormatPhone(x)) == k;
    // the formatter only looks at the first eleven digits
    if |d| > 11 {
      assert k[..3] == d[..3] && k[3..7] == d[3..7] && k[7..11] == d[7..11];
    }
  }

  /** `/^010-\d{4}-\d{4}$/`. */
  predicate MatchesPhonePattern(p: string) {
    && |p| == 13
    && p[..4] == "010-"
    && AllDigits(p[4..8])
    && p[8] == '-'
    && AllDigits(p[9..])
  }

  /** The formatter produces a well-formed number exactly when the input has at least eleven digits, the first three being 010. */
  lemma {:induction false} FormatPhoneMatchesPattern(x: string)
    ensures MatchesPhonePattern(FormatPhone(x)) <==> |Digits(x)| >= 11 && Digits(x)[..3] == "010"
  {
    var d := Digits(x);
    var r := FormatPhone(x);
    if |d| >= 11 && d[..3] == "010" {
      assert r == d[..3] + "-" + d[3..7] + "-" + d[7..11];
      assert r[..4] == "010-";
      assert r[4..8] == d[3..7];
      assert r[9..] == d[7..11];
    }
    if MatchesPhonePattern(r) {
      assert |d| >= 8;
      assert r == d[..3] + "-" + d[3..7] + "-" + d[7..if |d| < 11 then |d| else 11];
      assert r[..3] == d[..3];
    }
  }

  /** A number in the required shape is left exactly as it is by the formatter. */
  lemma WellFormedPhoneIsFixed(p: string)
    requires MatchesPhonePattern(p)
    ensures FormatPhone(p) == p
  {
    var d := p[..3] + p[4..8] + p[9..];
    assert p == p[..3] + "-" + p[4..8] + "-" + p[9..];
    assert p[..3] == "010";
    var x2 := p[..3] + "-" + p[4..8];
    assert AllDigits(p[..3]) && AllDigits(p[4..8]) && AllDigits(p[9..]);
    DigitsHyphenJoin(p[..3], p[4..8]);
    assert Digits(x2) == p[..3] + p[4..8];
    DigitsHyphenJoin(x2, p[9..]);
    assert Digits(p) == d;
    assert d[..3] == p[..3] && d[3..7] == p[4..8] && d[7..11] == p[9..];
  }

  // ---------------- validateForm ----------------

  datatype StudentForm = StudentForm(name: string, phone: string, grade: string, semester: string)

  /** The messages `validateForm` records, one kind per check. */
  datatype FieldError = NameRequired | PhoneRequired | PhoneMalformed | GradeRequired | SemesterRequired

  /** The error map `validateForm` builds, listed in the order the checks run; the form is accepted when it is empty. */
  function ValidateForm(f: StudentForm): (errors: seq<FieldError>)
    ensures errors == [] <==>
      !IsBlank(f.name) && MatchesPhonePattern(f.phone) && f.grade != "" && f.semester != ""
    ensures NameRequired in errors <==> IsBlank(f.name)
    ensures PhoneRequired in errors <==> f.phone == ""
    ensures PhoneMalformed in errors <==> f.phone != "" && !MatchesPhonePattern(f.phone)
    ensures GradeRequired in errors <==> f.grade == ""
    ensures SemesterRequired in errors <==> f.semester == ""
  {
    TrimEmptyIffBlank(f.name);
    var name := if Trim(f.name) == "" then [NameRequired] else [];
    var phone := if f.phone == "" then [PhoneRequired]
                 else if !MatchesPhonePattern(f.phone) then [PhoneMalformed]
                 else [];
    var grade := if f.grade == "" then [GradeRequired] else [];
    var semester := if f.semester == "" then [SemesterRequired] else [];
    assert forall e :: e in name + phone + grade + semester <==> e in name || e in phone || e in grade || e in semester;
    name + phone + grade + semester
  }
}

=== FILE: student_result.dfy ===
/**
 * The student's result page: it renders the score the server returned, a
 * message tier chosen by the score, the right and wrong counts and the
 * percentage recomputed from the counts.
 */
module StudentResult {
  import opened Wrappers
  import opened Grading
  import opened Database
  import Server

  /** The three messages (with their emoji), chosen by score. */
  datatype Tier = Excellent | Good | Retry

  function TierOf(score: int): (t: Tier)
    ensures t == Excellent <==> score >= 90
    ensures t == Good <==> 70 <= score < 90
    ensures t == Retry <==> score < 70
  {
    if score >= 90 then Excellent else if score >= 70 then Good else Retry
  }

  /** A tier's rank: a higher rank is a better message. */
  function Rank(t: Tier): nat {
    match t
    case Retry => 0
    case Good => 1
    case Excellent => 2
  }

  /** A higher score never earns a worse message. */
  lemma TierMonotone(s1: int, s2: int)
    requires s1 <= s2
    ensures Rank(TierOf(s1)) <= Rank(TierOf(s2))
  {
  }

  datatype Page =
    | Redirect
    | Shown(tier: Tier, score: int, correct: int, wrong: int, percent: Option<int>)

  /**
   * The page for the navigation state: with no score it sends the student
   * back to the info form; a score of 0 is still shown.
   */
  function Render(score: Option<int>, correct: nat, total: nat): (p: Page)
    ensures p == Redirect <==> score.None?
    ensures p.Shown? ==>
      && p.score == score.value && p.tier == TierOf(score.value)
      && p.correct == correct && p.correct + p.wrong == total
      && (p.wrong >= 0 <==> correct <= total)
      && p.percent == ShownPercent(correct, total)
  {
    if score.None? then Redirect
    else Shown(TierOf(score.value), score.value, correct, total - correct, ShownPercent(correct, total))
  }

  /**
   * Fed the response of a graded submission with no repeated question
   * number, the page shows the server's score twice over: the recomputed
   * percentage equals it, and the wrong count is not negative.
   */
  lemma {:induction false} PageAgreesWithServer(s: Store, req: Server.SubmitRequest, now: int)
    requires Valid(s)
    requires Server.SubmitRequestComplete(req) && HasPaperId(s.papers, req.testPaperId.value)
    requires Domain.DistinctAnswerNumbers(req.answers.value)
    ensures var g := Server.SubmitTest(s, req, now).1.value;
      var p := Render(Some(g.score), g.correctCount, g.total);
      && p.Shown? && p.percent == Some(g.score) && 0 <= p.wrong <= g.total
      && p.tier == TierOf(g.score)
  {
    Server.SubmitScoreAtMostHundred(s, req, now);
  }
}

=== FILE: student_test.dfy ===
/**
 * The student test page: one question at a time, a 1-based choice, an
 * answers array written on "next", a confirmation step on the last question,
 * and the submission payload built from the answers array.
 */
module StudentTest {
  import opened Domain
  import opened Grading
  import Server

  /**
   * The page state for a paper of `total` questions: the question shown, the
   * choice recorded per question (0 = none), the highlighted choice of the
   * current question (0 = none) and whether the confirmation dialog is open.
   */
  datatype Runner = Runner(current: int, answers: seq<int>, selected: int, confirming: bool)

  /**
   * The index stays on the paper, the answers array keeps the paper's
   * length, every question already passed has a recorded choice, and the
   * dialog opens only on the last question once its choice is recorded.
   */
  predicate Valid(r: Runner, total: int) {
    && |r.answers| == total
    && 0 <= r.current < total
    && r.selected >= 0
    && (forall i :: 0 <= i < r.current ==> r.answers[i] >= 1)
    && (r.confirming ==> r.current == total - 1 && r.answers[r.current] >= 1)
  }

  /** The state once the paper is loaded: `new Array(n).fill(0)`, first question, nothing selected. */
  function Begin(total: nat): (r: Runner)
    requires total >= 1
    ensures Valid(r, total)
    ensures forall i :: 0 <= i < total ==> r.answers[i] == 0
    ensures r.current == 0 && r.selected == 0 && !r.confirming
  {
    Runner(0, seq(total, _ => 0), 0, false)
  }

  /** `handleChoiceSelect`: choice buttons are numbered from 0, the stored choice from 1. */
  function SelectChoice(r: Runner, total: int, choiceIndex: nat): (r': Runner)
    requires Valid(r, total)
    ensures Valid(r', total)
    ensures r'.selected == choiceIndex + 1 >= 1
    ensures r' == r.(selected := r'.selected)
  {
    r.(selected := choiceIndex + 1)
  }

  /**
   * `handleNext`: nothing happens until a choice is highlighted; otherwise
   * the choice is recorded for the current question, and the page either
   * opens the confirmation (last question) or moves on with nothing selected.
   */
  function Next(r: Runner, total: int): (r': Runner)
    requires Valid(r, total)
    ensures Valid(r', total)
    ensures r.selected == 0 ==> r' == r
    ensures r.selected != 0 ==>
      && |r'.answers| == |r.answers|
      && r'.answers[r.current] == r.selected
      && (forall i :: 0 <= i < |r.answers| && i != r.current ==> r'.answers[i] == r.answers[i])
    ensures r.selected != 0 && r.current == total - 1 ==>
      r'.confirming && r'.current == r.current && r'.selected == r.selected
    ensures r.selected != 0 && r.current < total - 1 ==>
      r'.current == r.current + 1 && r'.selected == 0 && r'.confirming == r.confirming
  {
    if r.selected == 0 then r
    else
      var answers := r.answers[r.current := r.selected];
      if r.current == total - 1 then r.(answers := answers, confirming := true)
      else r.(answers := answers, current := r.current + 1, selected := 0)
  }

  /** The dialog's cancel button closes it and leaves everything else. */
  function CancelConfirm(r: Runner, total: int): (r': Runner)
    requires Valid(r, total)
    ensures Valid(r', total) && !r'.confirming
    ensures r' == r.(confirming := false)
  {
    r.(confirming := false)
  }

  /** The confirmation dialog, and so the submission, is only reachable with a choice recorded for every question. */
  lemma ConfirmingMeansAllAnswered(r: Runner, total: int)
    requires Valid(r, total) && r.confirming
    ensures forall i :: 0 <= i < total ==> r.answers[i] >= 1
  {
  }

  /** `answers.map((answer, index) => ({question_number: index + 1, selected_answer: answer}))`. */
  function Payload(answers: seq<int>): (p: seq<Answer>)
    ensures |p| == |answers|
    ensures forall i :: 0 <= i < |p| ==> p[i].questionNumber == i + 1 && p[i].selectedAnswer == answers[i]
  {
    seq(|answers|, i requires 0 <= i < |answers| => Answer(i + 1, answers[i]))
  }

  /** The payload with each choice labelled by the number of the question it was given for. */
  function PayloadByNumber(view: seq<StudentQuestion>, answers: seq<int>): (p: seq<Answer>)
    requires |view| == |answers|
    ensures |p| == |answers|
    ensures forall i :: 0 <= i < |p| ==>
      p[i].questionNumber == view[i].questionNumber && p[i].selectedAnswer == answers[i]
  {
    seq(|answers|, i requires 0 <= i < |answers| => Answer(view[i].questionNumber, answers[i]))
  }

  /** How many positions of the answers array hold that question's correct choice: the intended count. */
  function PositionalCorrect(qs: seq<Question>, answers: seq<int>): nat
    requires |qs| == |answers|
  {
    if |qs| == 0 then 0
    else (if answers[0] == qs[0].answer then 1 else 0) + PositionalCorrect(qs[1..], answers[1..])
  }

  /** Answers that all hold the correct choice are all counted. */
  lemma {:induction false} PositionalCorrectAll(qs: seq<Question>, answers: seq<int>)
    requires |qs| == |answers|
    requires forall i :: 0 <= i < |qs| ==> answers[i] == qs[i].answer
    ensures PositionalCorrect(qs, answers) == |qs|
  {
    if |qs| > 0 {
      PositionalCorrectAll(qs[1..], answers[1..]);
    }
  }

  lemma FindsOwnNumber(qs: seq<Question>, j: int)
    requires DistinctQuestionNumbers(qs) && 0 <= j < |qs|
    ensures QuestionIndex(qs, qs[j].questionNumber) == j
  {
  }

  lemma {:induction false} PayloadByNumberFrom(qs: seq<Question>, answers: seq<int>, j: nat)
    requires DistinctQuestionNumbers(qs) && |answers| == |qs| && j <= |qs|
    ensures CountCorrect(qs, PayloadByNumber(Server.StudentView(qs), answers)[j..])
         == PositionalCorrect(qs[j..], answers[j..])
    decreases |qs| - j
  {
    var p := PayloadByNumber(Server.StudentView(qs), answers);
    if j < |qs| {
      PayloadByNumberFrom(qs, answers, j + 1);
      FindsOwnNumber(qs, j);
      assert p[j..][0] == p[j];
      assert p[j..][1..] == p[j + 1..];
      assert qs[j..][1..] == qs[j + 1..] && answers[j..][1..] == answers[j + 1..];
      assert Earns(qs, p[j]) <==> answers[j] == qs[j].answer;
    }
  }

  /**
   * Labelling choices with the paper's own question numbers makes the server
   * count exactly the positions answered correctly, whatever the numbering.
   */
  lemma {:induction false} PayloadByNumberGradesPositionally(qs: seq<Question>, answers: seq<int>)
    requires DistinctQuestionNumbers(qs) && |answers| == |qs|
    ensures CountCorrect(qs, PayloadByNumber(Server.StudentView(qs), answers)) == PositionalCorrect(qs, answers)
  {
    PayloadByNumberFrom(qs, answers, 0);
    assert PayloadByNumber(Server.StudentView(qs), answers)[0..] == PayloadByNumber(Server.StudentView(qs), answers);
    assert qs[0..] == qs && answers[0..] == answers;
  }

  /** The page's positional numbering is the paper's numbering exactly when the paper is numbered 1..n. */
  lemma PayloadAgreesWhenConsecutive(qs: seq<Question>, answers: seq<int>)
    requires |answers| == |qs|
    ensures Payload(answers) == PayloadByNumber(Server.StudentView(qs), answers) <==> ConsecutivelyNumbered(qs)
  {
    var p, q := Payload(answers), PayloadByNumber(Server.StudentView(qs), answers);
    if !ConsecutivelyNumbered(qs) {
      var k :| 0 <= k < |qs| && qs[k].questionNumber != k + 1;
      assert p[k] != q[k];
    }
  }
}

=== FILE: text.dfy ===
/** The string operations the pages and the SQL filters rely on. */
module Text {

  /** `\d` in a JavaScript regular expression without the `u` flag: an ASCII digit. */
  predicate IsDigit(c: char) {
    '0' <= c <= '9'
  }

  predicate AllDigits(s: string) {
    forall i :: 0 <= i < |s| ==> IsDigit(s[i])
  }

  /** `s.replace(/[^\d]/g, '')`: the digits of `s`, in their original order. */
  function Digits(s: string): (d: string)
    ensures |d| <= |s|
    ensures AllDigits(d)
    ensures AllDigits(s) ==> d == s
    ensures (forall i :: 0 <= i < |s| ==> !IsDigit(s[i])) ==> d == ""
  {
    if |s| == 0 then ""
    else if IsDigit(s[0]) then [s[0]] + Digits(s[1..])
    else Digits(s[1..])
  }

  /** Keeping only digits distributes over concatenation. */
  lemma {:induction false} DigitsAppend(a: string, b: string)
    ensures Digits(a + b) == Digits(a) + Digits(b)
  {
    if |a| == 0 {
      assert a + b == b;
    } else {
      assert (a + b)[0] == a[0];
      assert (a + b)[1..] == a[1..] + b;
      DigitsAppend(a[1..], b);
    }
  }

  /** The characters ECMAScript's `String.prototype.trim` removes: WhiteSpace and LineTerminator. */
  predicate IsSpace(c: char) {
    || c == ' ' || c == '\t' || c == '\n' || c == '\r' || c == '\U{B}' || c == '\U{C}'
    || c == '\U{A0}' || c == '\U{1680}' || ('\U{2000}' <= c <= '\U{200A}')
    || c == '\U{2028}' || c == '\U{2029}' || c == '\U{202F}' || c == '\U{205F}'
    || c == '\U{3000}' || c == '\U{FEFF}'
  }

  predicate IsBlank(s: string) {
    forall i :: 0 <= i < |s| ==> IsSpace(s[i])
  }

  function TrimStart(s: string): (t: string)
    ensures |t| <= |s| && t == s[|s| - |t|..]
    ensures |t| > 0 ==> !IsSpace(t[0])
    ensures IsBlank(s[..|s| - |t|])
  {
    if |s| > 0 && IsSpace(s[0]) then TrimStart(s[1..]) else s
  }

  function TrimEnd(s: string): (t: string)
    ensures |t| <= |s| && t == s[..|t|]
    ensures |t| > 0 ==> !IsSpace(t[|t| - 1])
    ensures IsBlank(s[|t|..])
  {
    if |s| > 0 && IsSpace(s[|s| - 1]) then TrimEnd(s[..|s| - 1]) else s
  }

  /** `s.trim()`: `s` without leading and trailing white space. */
  function Trim(s: string): string {
    TrimEnd(TrimStart(s))
  }

  /** `s.trim() !== ''` holds exactly when `s` has a character that is not white space. */
  lemma TrimEmptyIffBlank(s: string)
    ensures Trim(s) == "" <==> IsBlank(s)
  {
    var t := TrimStart(s);
    assert s == s[..|s| - |t|] + t;
    if Trim(s) == "" {
      // a non-empty `t` would start with a non-space, which TrimEnd cannot remove
      assert t == [];
      assert s == s[..|s| - |t|];
    }
  }

  /** SQLite's default LIKE folds ASCII letters only. */
  function LowerAscii(c: char): char {
    if 'A' <= c <= 'Z' then (c as int + 32) as char else c
  }

  function Lower(s: string): (t: string)
    ensures |t| == |s|
  {
    seq(|s|, i requires 0 <= i < |s| => LowerAscii(s[i]))
  }

  /** `needle` occurs as a contiguous piece of `hay`. */
  predicate Contains(hay: string, needle: string) {
    exists i :: 0 <= i <= |hay| && needle <= hay[i..]
  }

  /** `column LIKE '%needle%'` without wildcard characters inside `needle`. */
  predicate LikeContains(hay: string, needle: string) {
    Contains(Lower(hay), Lower(needle))
  }
}

=== FILE: wrappers.dfy ===
/** Optional values and success/failure results, the shapes every handler returns. */
module Wrappers {

  /** A value that may be absent: a missing JSON field, `undefined`, a `find` that found nothing. */
  datatype Option<+T> = None | Some(value: T)

  /** Either a successful response body or the error status a handler answers with. */
  datatype Result<+R, +E> = Success(value: R) | Failure(error: E)
}
